=== FILE: README.md ===
# Mafia round coordinator — a Dafny model

This project models the server of a browser Mafia game: `game.go`, the game
itself, and `main.go`, the per-connection loop that routes messages to games.

A game collects players in its lobby. Any player in the lobby launches it
with "Start" once five named and connected players are present. The roster is
then frozen to the named and connected players, and roles are dealt: a third
Mafia (rounded down), one Detective, one Doctor, and Citizens for the rest.
The game then cycles night → discussion → vote until the Mafia are gone or
reach parity. Players act by choosing from the options they are shown.
Submissions are aggregated per round. A completion signal cuts the
discussion's and the vote's timed waits short; the night has no timer and
ends only on its signal. The night is resolved from the last Kill, Save and
Investigate actions in iteration order. The vote lynches the first roster
player reaching a strict majority of the living.

Modules, in dependency order:

| file | module | models |
|---|---|---|
| `wrappers.dfy` | `Wrappers` | `Option` |
| `types.dfy` | `Types` | roles, action kinds, game states, players, actions, votes, the game record, views and deliveries |
| `roster.dfy` | `Roster` | roster queries: `nameToPlayer`, the alive lists, `namedAndConnectedPlayers`, look-up by id |
| `aggregate.dfy` | `Aggregate` | `addNightAction`, `addVote`, `skipDiscussion` and their completion tests |
| `resolve.dfy` | `Resolve` | `gameIsOver`, `calculateLynched`, `calculateNight` |
| `roles.dfy` | `Roles` | `assignRoles` |
| `views.dfy` | `Views` | the serialized statements, every broadcast's view, and delivery (`sendToConn`) |
| `entry.dfy` | `Entry` | `addPlayer`, `namePlayer`, `processAction` |
| `driver.dfy` | `Driver` | the loop of `run` as a step function |
| `session.dfy` | `Sessions` | `makeNewGame`, the message dispatch of `processWebsocketInteractions`, and the close handler |

Modelling choices:

- **Player identity.** A player has a stable `id`, which stands for the pointer identity of `*player` in Go. Night actions and votes are maps keyed by id. The world invariant keeps the ids of a game's members distinct, so an id stands for one player as a pointer does (`Sessions.ValidRoomIds`, `Roster.OnlyCarrier`).
- **Dropped players.** `run` drops unnamed or disconnected players from `g.players`. In Go their sessions still hold the player, so the model keeps them in `Game.dropped`. There they can still name themselves and submit choices.
- **Map iteration order.** Go's map iteration order in `calculateNight` is an explicit `order` parameter. It may be any enumeration of the action map's keys (`IsOrderOf`).
- **Randomness.** The random draws are parameters. `makeNewGame` takes four letter draws. `assignRoles` takes the accepted picks (`ValidPicks`): the distinct Mafia positions, then the Detective and Doctor positions, all distinct. The rejected draws of its retry loops are not modelled.
- **The `run` loop.** The goroutine is the step function `Driver.Step` over a program counter `Pc`. Each wait ends with an `Event`: `Elapsed` is a timer firing and `Signalled` is a completion signal being received. A completion signal is the boolean each submission returns.
- **Sessions.** A connection's loop is `Sessions.Receive` over a `Session`. All games ever created form the `World`. The world also holds the `games` registry by code (`listed`) and the reconnect registry `players` (`directory`).

Behaviours of the code worth knowing:

- **The night has no deadline.** `run` waits only on `allActionsDone` (game.go:555). `Driver.NightWaitsForSignal` proves that an elapsed timer leaves the night waiting.
- **Completion re-signals.** The completion test is repeated on every submission, so a later submission after completion signals again. It is not exactly-once: see `Aggregate.NightResignals`.
- **The lobby hint counts bytes.** `len(allNames) < 5` (game.go:199) measures UTF-8 bytes, so a lone four-letter name with an accented letter hides the hint: see `Views.AccentedNameHidesQuorumHint`.
- **Skips are not de-duplicated.** The skip counter simply increments.
- **Targets are not validated.** A choice naming nobody becomes an action or vote with no target. A choice naming a dead player targets that player.
- **Votes of anyone count.** Votes from dead or dropped players count in `calculateLynched`.
- **The game-over test.** It runs at the loop head: after the starting pause, after each night's results pause and after each vote's results pause.
- **Recording the last view.** `sendToConn` in main.go takes the player and records the view as its last payload. The calls in game.go pass two arguments. The model records every delivery, which is the three-argument behaviour.

## Model

| member | source | states |
|---|---|---|
| Roster.ToActionType | game.go:36-49 | maps each role to its action kind; the kind is Herping exactly for Citizens, and the role can be read back from the kind |
| Roster.ToActionTypeInjective | game.go:36-49 | distinct roles act with distinct action kinds |
| Roster.FirstWhere | game.go:177-184 | is the first position whose player satisfies the test, or the length when none does |
| Roster.NameToPlayer | game.go:177-184 | finds no player exactly when no roster player has the name; otherwise gives the id of the first player carrying it |
| Roster.AlivePlayerList | game.go:218-228 | holds one name per alive roster player (which names: `AliveListNames`) |
| Roster.AlivePlayerSansSelfList | game.go:206-216 | holds one name per alive roster player other than `self` (which names: `SansSelfListNames`) |
| Roster.NamesOf | game.go:206-228 | a name is in a list of names exactly when some listed player bears it |
| Roster.AliveListNames | game.go:218-228 | the alive list holds a name exactly when some alive roster player has it |
| Roster.SansSelfListNames | game.go:206-216 | the list without self holds a name exactly when some alive roster player other than `self` has it |
| Roster.SansSelfCount | game.go:206-228 | with unique ids, the list without self is one shorter than the alive list when self is alive, and equally long otherwise |
| Roster.OnlyCarrier | game.go:482-494 | when member ids are distinct, looking up a member's id finds that very member |
| Roster.NamedAndConnectedPlayers | game.go:514-524 | is the number of roster players both named and connected |
| Aggregate.Waiting | game.go:135-142 | is true exactly when some roster player needing to submit has no entry |
| Aggregate.UpsertSize | game.go:133 | an upsert grows the map by at most one, and not at all when the actor had already submitted |
| Aggregate.AddNightAction | game.go:131-148 | replaces the actor's entry and changes nothing else; signals exactly when every alive non-Citizen roster player has an entry |
| Aggregate.AddVote | game.go:150-167 | replaces the actor's vote and changes nothing else; signals exactly when every alive roster player has voted |
| Aggregate.SkipDiscussion | game.go:169-175 | increments the skip count and signals exactly when it equals the number of alive roster players |
| Aggregate.SubmittedActors | game.go:131-148 | after a sequence of submissions the keys are the old keys plus every actor; the roster is untouched |
| Aggregate.ActionReportsStable | game.go:131-148 | the signal reported by each submission depends only on the submissions up to it |
| Aggregate.NightCompletion | game.go:131-148 | the j-th night submission signals exactly when the required actors are among the keys after it |
| Aggregate.LastActionReport | game.go:131-148 | the last submission signals exactly when all required actors have submitted |
| Aggregate.NightResignals | game.go:145-147 | once a submission has signalled completion, every later one signals again |
| Aggregate.SubmittedVoters | game.go:150-167 | after a sequence of votes the keys are the old keys plus every voter |
| Aggregate.VoteReportsStable | game.go:150-167 | the signal reported by each vote depends only on the votes up to it |
| Aggregate.VoteCompletion | game.go:150-167 | the j-th vote signals exactly when every alive roster player has voted by then |
| Aggregate.LastVoteReport | game.go:150-167 | the last vote signals exactly when every alive roster player has voted |
| Aggregate.SkipCounting | game.go:169-175 | n skips from zero leave the count at n, and exactly the skip that reaches the alive count signals |
| Resolve.Tally | game.go:230-242 | counts alive Mafia and alive non-Mafia roster players |
| Resolve.AliveSplits | game.go:234-242 | every alive player is counted on exactly one side |
| Resolve.GameIsOver | game.go:230-252 | is true exactly when no Mafia is alive or alive Mafia are at least as many as alive others |
| Resolve.ParityEndsGame | game.go:243-246 | two alive Mafia against two alive others end the game |
| Resolve.TownWinEndsGame | game.go:247-250 | one concrete four-player roster whose only Mafia is dead is over |
| Resolve.MinorityContinues | game.go:230-252 | one alive Mafia against four alive others does not end the game |
| Resolve.FirstReaching | game.go:613-626 | is the first roster position whose vote count reaches the threshold, or the roster's length if none does |
| Resolve.CalculateLynched | game.go:610-629 | lynches nobody exactly when every roster player's count is below the majority, and then changes nothing |
| Resolve.LynchesFirstMajority | game.go:610-629 | a lynch names the first roster player whose count reaches the majority, and only that player dies |
| Resolve.SplitVoteNoLynch | game.go:610-629 | six voters split 3/2/1: no majority of four, nobody is lynched |
| Resolve.MajorityLynches | game.go:610-629 | three of five votes on one player lynch that player |
| Resolve.MajorityIsUnique | game.go:611-626 | when only alive roster players vote, no two players can both reach the majority |
| Resolve.LastTarget | game.go:635-644 | a target found is that of some action of the kind; with no action of the kind there is none |
| Resolve.ScanActions | game.go:633-644 | the scan yields the last Kill, Save and Investigate targets in iteration order |
| Resolve.KillPlayer | game.go:650-652 | marks dead exactly the players carrying the dead id and leaves all others as they were |
| Resolve.CalculateNight | game.go:632-655 | the kill stands unless the last save names the same target, in which case nobody dies; the investigated player is the last investigation's target regardless; only the killed player changes |
| Resolve.LastTargetIgnoresOrder | game.go:635-644 | with at most one action per kind, the last target of a kind does not depend on the order |
| Resolve.NightIgnoresOrder | game.go:632-655 | with at most one action per kind, the night's outcome does not depend on the order |
| Resolve.SaveCancelsKill | game.go:646-648 | Kill X, Save X, Investigate Y: nobody dies and Y is investigated, in every order |
| Resolve.UnsavedKill | game.go:632-655 | Kill X, Save Z with Z ≠ X, Investigate X: X dies and X is investigated, in every order |
| Roles.PromoteAllEffect | game.go:663-669 | promoting distinct Citizen positions changes exactly those roles, raising the role's count and lowering the Citizens' by the number of picks |
| Roles.PromoteOne | game.go:674-691 | promoting one Citizen moves one count from Citizen to the new role |
| Roles.AssignRoles | game.go:657-692 | changes only roles: the Mafia picks become Mafia, the Detective pick Detective, the Doctor pick Doctor, everyone else stays Citizen |
| Roles.AssignRolesCounts | game.go:657-692 | the roster ends with n/3 Mafia, one Detective, one Doctor and n - n/3 - 2 Citizens |
| Roles.RolesAssignableIff | game.go:657-692 | accepted picks exist exactly when n ≥ n/3 + 2, that is when n ≥ 2; with no players the first draw panics (`rand.Int31n(0)`, game.go:675), and with one player the Doctor's retry loop never ends |
| Views.Utf8Width | game.go:199 | a character takes one to four UTF-8 bytes, and one exactly when it is ASCII |
| Views.Utf8Len | game.go:199 | Go's `len`: a string's UTF-8 byte count lies between its length and four times it, and equals its length exactly when it is all ASCII |
| Views.UnstartedStatement | game.go:186-204 | shows the lobby code and the joined names, plus the "Require at least 5 players" line exactly when the joined names take fewer than five UTF-8 bytes |
| Views.NoQuorumHintFromFourPlayers | game.go:186-204 | from four named and connected players the joined names reach five bytes, so the "Require at least 5 players" line is gone |
| Views.LongNameHidesQuorumHint | game.go:195-201 | one player named "Alexander" already hides the hint, because the test is on the joined names' length |
| Views.AccentedNameHidesQuorumHint | game.go:199 | a lone "José", four characters but five bytes, hides the hint, because Go's `len` counts bytes |
| Views.StartingView | game.go:297-310 | an info view without options: the running statements, then the player's own role |
| Views.NightView | game.go:336-357 | the running statements and "Night-time"; the alive get a select view offering the other alive players and their role's prompt, the dead an info view without options |
| Views.DiscussionView | game.go:312-334 | the running statements and "Discussion-time"; the alive get a select view offering only "Skip", the dead an info view without options |
| Views.VoteView | game.go:359-380 | the running statements and "Vote-time"; the alive get a select view offering the other alive players and the lynch prompt, the dead an info view without options |
| Views.VoteResultsView | game.go:382-398 | an info view ending in one result line, which says "no one was lynched" exactly when nobody was lynched |
| Views.NightResultsView | game.go:444-480 | an info view that starts with the morning statements and adds one line exactly for the alive Detective |
| Views.FinishStatement | game.go:400-428 | opens with "The mafia (" exactly when a Mafia is alive |
| Views.ThanksAnswersPrompt | game.go:270-295 | each acknowledgement repeats the prompt it answers up to the round's time line (adding "Voted to skip" after the discussion) and withdraws the choice |
| Views.OnlyTheAliveChoose | game.go:312-380 | the dead get info views without options at night, in discussion and at the vote; the alive get select views, with "Skip" in discussion |
| Views.OptionsAreAliveOthers | game.go:336-380 | the night and vote options are exactly the names of the other alive roster players |
| Views.InvestigationOnlyForAliveDetective | game.go:444-480 | only the alive Detective gets the investigation line, appended to the morning statements everyone else gets |
| Views.FinishNamesWinner | game.go:400-428 | the finish statement says the Mafia won exactly when a Mafia is alive |
| Views.BroadcastReaches | game.go:297-310 | a broadcast sends its view to every targeted roster player and to nobody else |
| Views.Deliver | main.go:83-90 | records, for each player, the last view delivered to it as its last payload and changes nothing else |
| Entry.AddPlayer | game.go:482-494 | appends an unnamed, alive, connected Citizen whose id no member already has |
| Entry.DeliverKeepsRoster | main.go:83-90 | delivering views changes only last payloads |
| Entry.NamePlayer | game.go:496-512 | the game is unchanged except for the roster and the dropped list (code, state, night actions, votes and skips are kept); every roster and dropped seat carrying the id is the old seat with the name set and marked named; every other seat is unchanged; only last payloads change besides; every resulting delivery offers "Start" in select mode |
| Entry.NamePlayerReaches | game.go:500-511 | the lobby goes to exactly the named and connected roster players, each reading the game's code first and offered only "Start" |
| Entry.NamePlayerKeepsSeats | game.go:496-499 | naming keeps every seat's id and role |
| Entry.ActAtNight | game.go:696-705 | upserts the actor's action with its role's kind and the named target; signals exactly when the night's required actors are in |
| Entry.VoteAtVote | game.go:709-717 | upserts the voter's vote for the named target; signals exactly when every alive roster player has voted |
| Entry.SkipAtDiscussion | game.go:706-708 | counts one more skip and signals exactly when the skips equal the alive players |
| Entry.SubmissionAcknowledged | game.go:694-719 | a submission in a round is acknowledged to the submitter alone, with an info view without options that still shows the round's time |
| Entry.ProcessAction | game.go:694-719 | dispatches on the state; outside the three round states nothing happens; the code is kept and the roster changes only in last payloads; each round keeps the round data it does not use (the night keeps votes and skips, the vote keeps night actions and skips, the discussion keeps night actions and votes) |
| Driver.Announce | game.go:297-310 | a broadcast (whose recipients `Views.BroadcastReaches` states) keeps the state, the round data and every player apart from its last payload |
| Driver.Deal | game.go:526-539 | keeps only named and connected players in their order, deals n/3 Mafia, one Detective and one Doctor, and keeps the others as dropped |
| Driver.AnnounceReaches | game.go:297-310 | a broadcast reaches every connected roster player with that player's view and nobody else |
| Driver.Start | game.go:526-543 | launches into the starting state with the dealt roster and the role counts; every delivery is an info view |
| Driver.StartShowsRoles | game.go:297-310 | every connected player of the dealt roster gets its own starting view, and nobody else gets anything |
| Driver.DealKeepsUnique | game.go:528-536 | the launch filter keeps member ids distinct |
| Driver.Finish | game.go:599-601 | enters the done state; only last payloads change |
| Driver.FinishShowsWinner | game.go:400-428 | the finish view reaches exactly the connected roster players, and it names the Mafia as winners exactly when a Mafia is alive |
| Driver.OpenNight | game.go:548-551 | empties the night actions and enters the night |
| Driver.OpenNightPrompts | game.go:336-357 | each connected roster player gets its own night view and nobody else gets anything; only the alive are asked to choose |
| Driver.OpenDiscussion | game.go:566-570 | zeroes the skips and enters the discussion |
| Driver.OpenDiscussionPrompts | game.go:312-334 | each connected roster player gets its own discussion view and nobody else gets anything; only the alive are offered a choice |
| Driver.Head | game.go:545-570 | finishes exactly when the game is over; otherwise opens the next night or discussion with empty submissions |
| Driver.ResolveNight | game.go:555-560 | applies the night's resolution to the roster; otherwise only last payloads change |
| Driver.ResolveNightShows | game.go:444-480 | each connected player of the resolved roster gets its own morning view, and nobody else gets anything |
| Driver.OpenVote | game.go:577-579 | empties the votes and enters the vote |
| Driver.OpenVotePrompts | game.go:359-380 | each connected roster player gets its own vote view and nobody else gets anything; only the alive are asked to vote |
| Driver.ResolveVotePlayers | game.go:589-591 | applies the lynch to the roster; otherwise only last payloads change |
| Driver.Reset | game.go:603-605 | every delivery is the reset view; nothing changes but last payloads |
| Driver.ResetReachesConnected | game.go:430-442 | the reset view reaches every connected roster player and nobody else |
| Driver.ResolveVote | game.go:589-591 | resolving the vote keeps the state (its effect on players: `ResolveVotePlayers`) |
| Driver.ResolveVoteShows | game.go:382-398 | the vote's result reaches exactly the connected roster players, and says nobody was lynched exactly when nobody was |
| Driver.Wake | game.go:541-605 | after the starting pause and each vote's results the night opens, after the night's results the discussion, unless the game is over, which finishes; the final pause ends the loop; a signal during a pause changes nothing |
| Driver.NightEnds | game.go:553-560 | only the signal ends the night's wait |
| Driver.DiscussionEnds | game.go:572-579 | the discussion's end, by timer or signal, opens the vote |
| Driver.VoteEnds | game.go:583-591 | the vote's end, by timer or signal, shows its results |
| Driver.EndWait | game.go:553-591 | the game's state matches the loop position the wait leads to |
| Driver.EndWaitTargets | game.go:553-591 | the night stays waiting until its signal and then shows its results; the discussion opens the vote; the vote shows its results |
| Driver.Step | game.go:526-608 | each step keeps the game state or moves it along Starting → Night → Discussion → Vote → Night …, with Done reached only from Starting, Night or Vote and only when the game is over (the exact next position: `StepFollowsLoop`) |
| Driver.StepFollowsLoop | game.go:526-608 | every step goes to the position the loop's code reaches next: Revealing → night, night → its results only on the signal, results → discussion → vote → results → night, with Finishing exactly when the game is over at the head |
| Driver.OverTestedAtHead | game.go:547 | after each pause the loop finishes exactly when the game is over |
| Driver.DiscussionAlwaysVotes | game.go:565-579 | the discussion always leads to the vote, without a game-over test in between |
| Driver.NightWaitsForSignal | game.go:553-555 | an elapsed timer leaves the night waiting, unchanged |
| Driver.RoundsStartEmpty | game.go:549-577 | entering the night, discussion or vote starts with no actions, no skips or no votes |
| Driver.StepPlayers | game.go:526-608 | only the night's and vote's resolutions change the roster beyond last payloads |
| Driver.NightKeepsSeats | game.go:650-652 | the night changes no seat's id or role |
| Driver.LynchKeepsSeats | game.go:622-624 | the lynch changes no seat's id or role |
| Driver.StepKeepsSeats | game.go:526-608 | no step of the loop changes a seat's id or role |
| Driver.DealKeepsMembers | game.go:528-536 | every member before the launch filter is still a member after it |
| Driver.StartKeepsMembers | game.go:526-543 | the launch forgets no player |
| Sessions.MakeNewGame | main.go:58-81 | the code is four capital letters spelled by the draws; the game is an empty lobby with empty submissions |
| Sessions.EveryCodeCanBeDrawn | main.go:59-63 | every four-capital-letter code can be drawn, by exactly one sequence of draws |
| Sessions.UpperCharSpells | main.go:128 | a character upper-cases to a capital letter exactly when it is that letter in either case or one of the two non-ASCII letters mapping to it |
| Sessions.UpperNamesCode | main.go:128-130 | a text upper-cases to a code exactly when it has the code's length and spells it character by character |
| Sessions.SetConnected | main.go:99-105 | flips the connected flag of the players carrying the id and changes nothing else |
| Sessions.Join | main.go:127-142 | adds a new player to the lobby game, with an id not in use, and asks it for a name; the room's game is exactly the game `AddPlayer` returns with the name prompt recorded as the newcomer's last payload, and the session's player is the id `AddPlayer` hands out; other games and registries are unchanged |
| Sessions.AddPlayerKeeps | game.go:482-494 | adding a player keeps the lobby all Citizens with fresh ids, forgets nobody and makes the newcomer known |
| Sessions.JoinAsksForName | main.go:136-140 | the newcomer's view shows the game's code first and "Pick a name" last, and offers nothing to choose |
| Sessions.JoinKeepsValid | main.go:127-142 | joining keeps the world valid and leaves a valid session |
| Sessions.Register | main.go:79 | appends the new game and lists it under its code, replacing any game listed there |
| Sessions.RegisterKeepsValid | main.go:79 | registering keeps the world valid |
| Sessions.Rejoin | main.go:159-168 | reattaches to the player, resends its last payload and changes only that game |
| Sessions.RejoinRestores | main.go:159-168 | the player is found again, connected, with everything else as it was |
| Sessions.RejoinKeepsValid | main.go:159-168 | reconnecting keeps the world valid |
| Sessions.NameSelf | main.go:175-180 | an already named player's Enter does nothing |
| Sessions.Launch | main.go:182-184 | the launch starts the game's loop at the role reveal: the room holds exactly the game `Driver.Start` deals from the room's game with the given role draws, and the deliveries are exactly Start's; every other room and every registry is unchanged |
| Sessions.Forward | main.go:186-188 | a choice during a round is the game's `processAction`, applied to that game alone |
| Sessions.Current | main.go:119-122 | a session whose game is Done is treated as outside, and no other |
| Sessions.ValidRoomIds | game.go:482-494 | in a valid room a member's id finds that member, and roster ids are distinct |
| Sessions.ReceiveOutside | main.go:125-170 | outside a game no message signals, and a message that leaves the session outside changes nothing |
| Sessions.ReceiveInside | main.go:171-190 | the session stays in its game, and a signal comes only from a choice during a round |
| Sessions.Receive | main.go:109-191 | a completion signal is raised only by a Select from a session inside a live game |
| Sessions.Close | main.go:99-105 | closing changes only the session's game, keeps its loop position and every other room and registry, and an outside session's close changes nothing |
| Sessions.Tick | game.go:526-608 | the room becomes exactly the game and loop position `Driver.Step` returns, and the deliveries are Step's; when the loop ends, the code is unlisted, whichever game is listed under it; otherwise registries are unchanged |
| Sessions.DoneResetsSession | main.go:119-122 | a session of a Done game handles messages exactly as an outside session does |
| Sessions.EnterJoinsOnlyLobbies | main.go:127-142 | Enter joins exactly when the upper-cased text is a listed code of a game still in the lobby, and otherwise does nothing |
| Sessions.SelectCreatesGame | main.go:143-151 | Select from outside lists a fresh game under its code and joins it as its only player |
| Sessions.ReconnectReplays | main.go:152-169 | an unknown token does nothing; a known one reattaches, reconnects the player and replays its last payload |
| Sessions.EnterNamesOnce | main.go:175-180 | inside a game, Enter names the player once and is ignored afterwards |
| Sessions.SelectLaunchesIff | main.go:181-184 | a lobby game leaves the lobby exactly when the message is "Start" and at least five players are named and connected |
| Sessions.SelectLaunches | main.go:182-184 | a launching Select moves the loop to the role reveal |
| Sessions.SelectStaysInLobby | main.go:181-188 | any other Select leaves a lobby game and the whole world unchanged |
| Sessions.SelectForwardsOnlyInRounds | main.go:186-188 | other choices reach `processAction` exactly during night, discussion or vote, and are otherwise ignored |
| Sessions.ReconnectInsideIgnored | main.go:171-190 | inside a game, Reconnect does nothing |
| Sessions.SetConnectedMembers | main.go:99-105 | flipping the flag changes members only at the positions carrying the id |
| Sessions.CloseDisconnects | main.go:99-105 | after the close handler the session's player is still known and is disconnected |
| Sessions.ReceiveOutsideKeepsValid | main.go:125-170 | messages outside a game keep the world valid |
| Sessions.NameSelfKeepsValid | main.go:175-180 | naming keeps the world valid |
| Sessions.LaunchKeepsValid | main.go:182-184 | launching keeps the world valid |
| Sessions.ForwardKeepsValid | main.go:186-188 | forwarding a choice keeps the world valid |
| Sessions.ReceiveInsideKeepsValid | main.go:171-190 | messages inside a game keep the world valid |
| Sessions.ReceiveKeepsValid | main.go:110-191 | every message keeps the world valid, the session valid, and every existing session valid |
| Sessions.CloseKeepsValid | main.go:99-105 | the close handler keeps the world valid |
| Sessions.TickKeepsValid | game.go:526-608 | every step of a game's loop keeps the world valid |
| Sessions.UnlistKeepsValid | game.go:607 | unlisting a code keeps the world valid |
| Sessions.LaunchDrawsExist | main.go:182 | with at least five players, accepted role picks exist, so the launch can always deal roles |

## Left out

- Goroutines, channels, mutexes and timers are not modelled. The model has no interleaving inside an operation. A round's signal is a returned boolean, and each wait ends with an explicit event.
- A signal sent while the loop is not waiting on its channel is not modelled as blocking the sender. In Go the send blocks until the next receive on that channel, which it then completes at once, ending that round's wait as soon as it starts. In the model a `Signalled` event during a pause leaves `Driver.Wake` where it was, and the signal is not remembered. `Sessions.Tick` takes any `Event` at every wait, so a wait that such a pending send ends at once is the step with `Signalled` at that wait.
- Random number generation is replaced by draws passed as parameters.
- The websocket transport, JSON encoding, `handleWs`, `main` and the read-error exit are not modelled.
- Logging is not modelled: the `fmt.Println` of a failed send (main.go:88), the read error (main.go:115) and the reconnect trace (main.go:153-163) have no effect on the game.
- Parsing of the reconnect token (`strconv.Atoi`, then truncation to `int32`) is not modelled. The message carries the parsed token.
- The `players` registry is never written by the code, so reconnection never succeeds in practice. The model keeps the registry as `World.directory`, and no operation adds to it.
- Two Starts racing before `run` sets the starting state could launch a game twice. The model launches once, atomically.
- `strings.ToUpper` is modelled only on what decides whether a code matches: ASCII `a`–`z`, `ı` (U+0131) and `ſ` (U+017F). Other characters keep their value, because no other character upper-cases into `A`–`Z`.
- `turn` is never read and is not modelled.
- Sessions.ReceiveInside: its own contract states only that the session stays inside and when a signal can arise. What it does is stated by `EnterNamesOnce`, `SelectLaunchesIff`, `SelectForwardsOnlyInRounds` and `ReconnectInsideIgnored`.
- Sessions.ReceiveOutside: its own contract states only that it never signals and that staying outside changes nothing. Its behaviour is stated by `EnterJoinsOnlyLobbies`, `SelectCreatesGame` and `ReconnectReplays`.
- Driver.ResolveVote: its contract states only that the state is kept. Its effect on players is stated by `ResolveVotePlayers`, to keep the lynch's contract out of the loop's proofs.
- Roster.AlivePlayerList: its contract states only the length. Which names it holds is stated by `AliveListNames`, to keep that fact out of every proof that uses the majority.
- Roster.AlivePlayerSansSelfList: its contract states only the length, that of the filtered roster. Which names it holds is stated by `SansSelfListNames`.
- Views.Broadcast: its contract states only a bound on the length. Who receives what is stated by `BroadcastReaches`.
- Resolve.CalculateLynched: its contract states when nobody is lynched. Who is lynched otherwise is stated by `LynchesFirstMajority`.
- Sessions.Upper: its contract states only the length. The letters are stated by `UpperCharSpells` and `UpperNamesCode`.
- Driver.EndWait: its contract states only that the state matches the position reached. Where each wait leads is stated by `EndWaitTargets`, to keep those facts out of the proof of `Step`.

=== FILE: aggregate.dfy ===
/**
 The submission aggregators of game.go: `addNightAction`, `addVote` and
 `skipDiscussion`. Each upserts or counts, then reports whether the round is
 complete; the source sends that report on an unbuffered channel, here it is a
 returned boolean.
 */
module Aggregate {
  import opened Wrappers
  import opened Types
  import opened Roster

  /** Players whose night action the round waits for: alive and not Citizen. */
  predicate NeedsToAct(p: Player) { p.alive && p.role != Citizen }

  /** Ids of the roster players whose night action the round waits for. */
  function NightRequired(ps: seq<Player>): set<nat>
  {
    set p | p in ps && NeedsToAct(p) :: p.id
  }

  /** Ids of the roster players whose vote the round waits for: every alive player. */
  function VoteRequired(ps: seq<Player>): set<nat>
  {
    set p | p in ps && p.alive :: p.id
  }

  /** The source's completion scan: some player satisfying `need` has no entry in `keys`. */
  function Waiting(ps: seq<Player>, need: Player -> bool, keys: set<nat>): (w: bool)
    ensures w <==> exists p :: p in ps && need(p) && p.id !in keys
  {
    if |ps| == 0 then false
    else
      assert forall p :: p in ps <==> p == ps[0] || p in ps[1..] by {
        assert ps == [ps[0]] + ps[1..];
      }
      (need(ps[0]) && ps[0].id !in keys) || Waiting(ps[1..], need, keys)
  }

  /**
   `after` is `before` with the entry of `k` set to `v`: a replaced entry, or
   one new key, and every other entry as it was.
   */
  predicate Upserted<V(==)>(before: map<nat, V>, k: nat, v: V, after: map<nat, V>)
  {
    && k in after && after[k] == v
    && after.Keys == before.Keys + {k}
    && forall j :: j in before && j != k ==> after[j] == before[j]
  }

  /** The map's domain grows by at most one key, and not at all on a resubmission. */
  lemma UpsertSize<V>(before: map<nat, V>, k: nat, v: V, after: map<nat, V>)
    requires Upserted(before, k, v, after)
    ensures |after| <= |before| + 1
    ensures k in before ==> |after| == |before|
  {
    assert after.Keys == before.Keys + {k};
    if k in before {
      assert after.Keys == before.Keys;
    } else {
      assert |before.Keys + {k}| == |before.Keys| + 1;
    }
  }

  /**
   Stores a night action under its actor (`addNightAction`) and reports
   whether every alive non-Citizen on the roster now has an entry. Entries of
   Citizens, of dead or dropped players, or with a nil target do not block.
   */
  function AddNightAction(g: Game, a: Action): (r: (Game, bool))
    ensures r.0 == g.(nightActions := r.0.nightActions)
    ensures Upserted(g.nightActions, a.actor, a, r.0.nightActions)
    ensures r.1 <==> NightRequired(g.players) <= r.0.nightActions.Keys
  {
    var actions := g.nightActions[a.actor := a];
    (g.(nightActions := actions), !Waiting(g.players, NeedsToAct, actions.Keys))
  }

  /**
   Stores a vote under its actor (`addVote`) and reports whether every alive
   roster player now has an entry.
   */
  function AddVote(g: Game, v: Vote): (r: (Game, bool))
    ensures r.0 == g.(votes := r.0.votes)
    ensures Upserted(g.votes, v.actor, v, r.0.votes)
    ensures r.1 <==> VoteRequired(g.players) <= r.0.votes.Keys
  {
    var votes := g.votes[v.actor := v];
    (g.(votes := votes), !Waiting(g.players, IsAlive, votes.Keys))
  }

  /**
   Counts one request to skip the discussion (`skipDiscussion`), with no
   record of who asked, and reports whether the count now equals the number
   of alive roster players.
   */
  function SkipDiscussion(g: Game): (r: (Game, bool))
    ensures r.0 == g.(skips := g.skips + 1)
    ensures r.1 <==> r.0.skips == |Filter(g.players, IsAlive)|
  {
    var skips := g.skips + 1;
    (g.(skips := skips), |AlivePlayerList(g.players)| == skips)
  }

  /** The actors of a sequence of submissions. */
  function Actors(acts: seq<Action>): set<nat>
  {
    set a | a in acts :: a.actor
  }

  function Voters(votes: seq<Vote>): set<nat>
  {
    set v | v in votes :: v.actor
  }

  /** Submits `acts` in order, collecting the completion report of each call. */
  function SubmitActions(g: Game, acts: seq<Action>): (r: (Game, seq<bool>))
    ensures |r.1| == |acts|
  {
    if |acts| == 0 then (g, [])
    else
      var before := SubmitActions(g, acts[..|acts| - 1]);
      var step := AddNightAction(before.0, acts[|acts| - 1]);
      (step.0, before.1 + [step.1])
  }

  /** Submits `votes` in order, collecting the completion report of each call. */
  function SubmitVotes(g: Game, votes: seq<Vote>): (r: (Game, seq<bool>))
    ensures |r.1| == |votes|
  {
    if |votes| == 0 then (g, [])
    else
      var before := SubmitVotes(g, votes[..|votes| - 1]);
      var step := AddVote(before.0, votes[|votes| - 1]);
      (step.0, before.1 + [step.1])
  }

  lemma ActorsAppend(init: seq<Action>, last: Action)
    ensures Actors(init + [last]) == Actors(init) + {last.actor}
  {
    assert forall a :: a in init + [last] <==> a in init || a == last;
  }

  lemma VotersAppend(init: seq<Vote>, last: Vote)
    ensures Voters(init + [last]) == Voters(init) + {last.actor}
  {
    assert forall v :: v in init + [last] <==> v in init || v == last;
  }

  /** Submitting leaves the roster alone and adds exactly the submitters' keys. */
  lemma {:induction false} SubmittedActors(g: Game, acts: seq<Action>)
    ensures SubmitActions(g, acts).0.players == g.players
    ensures SubmitActions(g, acts).0.nightActions.Keys == g.nightActions.Keys + Actors(acts)
  {
    if |acts| > 0 {
      var init, last := acts[..|acts| - 1], acts[|acts| - 1];
      SubmittedActors(g, init);
      assert acts == init + [last];
      ActorsAppend(init, last);
    }
  }

  /** The reports of the first n calls do not depend on what is submitted later. */
  lemma {:induction false} ActionReportsStable(g: Game, acts: seq<Action>, n: nat)
    requires n <= |acts|
    ensures SubmitActions(g, acts[..n]).1 == SubmitActions(g, acts).1[..n]
  {
    if n < |acts| {
      var init := acts[..|acts| - 1];
      ActionReportsStable(g, init, n);
      assert init[..n] == acts[..n];
    } else {
      assert acts[..n] == acts;
    }
  }

  /**
   Over any sequence of night submissions, call j reports completion exactly
   when the actors of the first j+1 submissions, with the entries present
   before, cover the alive non-Citizens: at the submission of the last
   distinct required actor, never earlier.
   */
  lemma NightCompletion(g: Game, acts: seq<Action>, j: nat)
    requires j < |acts|
    ensures SubmitActions(g, acts).1[j]
            <==> NightRequired(g.players) <= g.nightActions.Keys + Actors(acts[..j + 1])
  {
    ActionReportsStable(g, acts, j + 1);
    LastActionReport(g, acts[..j + 1]);
  }

  /** The report of the last call of a non-empty sequence of night submissions. */
  lemma LastActionReport(g: Game, acts: seq<Action>)
    requires |acts| > 0
    ensures SubmitActions(g, acts).1[|acts| - 1]
            <==> NightRequired(g.players) <= g.nightActions.Keys + Actors(acts)
  {
    SubmittedActors(g, acts[..|acts| - 1]);
    SubmittedActors(g, acts);
  }

  /** Once a night round has reported completion, every later submission reports it again. */
  lemma NightResignals(g: Game, acts: seq<Action>, j: nat, k: nat)
    requires j <= k < |acts|
    requires SubmitActions(g, acts).1[j]
    ensures SubmitActions(g, acts).1[k]
  {
    NightCompletion(g, acts, j);
    NightCompletion(g, acts, k);
    var shorter, longer := acts[..j + 1], acts[..k + 1];
    assert longer == shorter + acts[j + 1..k + 1];
    assert forall a :: a in shorter ==> a in longer;
  }

  lemma {:induction false} SubmittedVoters(g: Game, votes: seq<Vote>)
    ensures SubmitVotes(g, votes).0.players == g.players
    ensures SubmitVotes(g, votes).0.votes.Keys == g.votes.Keys + Voters(votes)
  {
    if |votes| > 0 {
      var init, last := votes[..|votes| - 1], votes[|votes| - 1];
      SubmittedVoters(g, init);
      assert votes == init + [last];
      VotersAppend(init, last);
    }
  }

  lemma {:induction false} VoteReportsStable(g: Game, votes: seq<Vote>, n: nat)
    requires n <= |votes|
    ensures SubmitVotes(g, votes[..n]).1 == SubmitVotes(g, votes).1[..n]
  {
    if n < |votes| {
      var init := votes[..|votes| - 1];
      VoteReportsStable(g, init, n);
      assert init[..n] == votes[..n];
    } else {
      assert votes[..n] == votes;
    }
  }

  /** The same completion rule for any sequence of votes, against every alive player. */
  lemma VoteCompletion(g: Game, votes: seq<Vote>, j: nat)
    requires j < |votes|
    ensures SubmitVotes(g, votes).1[j]
            <==> VoteRequired(g.players) <= g.votes.Keys + Voters(votes[..j + 1])
  {
    VoteReportsStable(g, votes, j + 1);
    LastVoteReport(g, votes[..j + 1]);
  }

  /** The report of the last call of a non-empty sequence of votes. */
  lemma LastVoteReport(g: Game, votes: seq<Vote>)
    requires |votes| > 0
    ensures SubmitVotes(g, votes).1[|votes| - 1]
            <==> VoteRequired(g.players) <= g.votes.Keys + Voters(votes)
  {
    SubmittedVoters(g, votes[..|votes| - 1]);
    SubmittedVoters(g, votes);
  }
  /** Calls `skipDiscussion` n times in a row, collecting each report. */
  function SkipRepeatedly(g: Game, n: nat): (Game, seq<bool>)
  {
    if n == 0 then (g, [])
    else
      var before := SkipRepeatedly(g, n - 1);
      var step := SkipDiscussion(before.0);
      (step.0, before.1 + [step.1])
  }

  /**
   From a fresh discussion, n skip requests (from any players, repeats
   included) leave the counter at n, and call j signals exactly when it is
   the call that makes the count equal the alive count, so at most one call
   of a discussion signals.
   */
  lemma {:induction false} SkipCounting(g: Game, n: nat)
    requires g.skips == 0
    ensures SkipRepeatedly(g, n).0 == g.(skips := n)
    ensures |SkipRepeatedly(g, n).1| == n
    ensures forall j :: 0 <= j < n ==> (SkipRepeatedly(g, n).1[j] <==> j + 1 == |AlivePlayerList(g.players)|)
  {
    if n > 0 {
      SkipCounting(g, n - 1);
    }
  }
}

=== FILE: driver.dfy ===
/**
 The phase loop of `run`, as a step function. The loop's position is a
 program counter; each wait of the loop ends with an event: a deadline
 elapsing or the round's completion signal. The night wait has no deadline,
 so only the signal ends it.
 */
module Driver {
  import opened Wrappers
  import opened Types
  import opened Roster
  import opened Roles
  import opened Resolve
  import opened Views

  /** Where the loop of `run` stands, from before the launch to after the reset. */
  datatype Pc =
    | Lobby       // not launched yet
    | Revealing   // roles shown, waiting 10 seconds
    | AwaitNight  // night prompt shown, waiting for every night action
    | NightShown  // night results shown, waiting 10 seconds
    | AwaitSkips  // discussion prompt shown, waiting 30 seconds or every skip
    | AwaitVotes  // vote prompt shown, waiting 60 seconds or every vote
    | VoteShown   // vote results shown, waiting 10 seconds
    | Finishing   // winner shown, waiting 15 seconds
    | Ended       // reset view sent, game unlisted

  /** What ends a wait. */
  datatype Event = Elapsed | Signalled

  /** The game state `run` has set at each position. */
  function Phase(pc: Pc): State
  {
    match pc
    case Lobby => PregameState
    case Revealing => StartingState
    case AwaitNight => NightState
    case NightShown => NightState
    case AwaitSkips => DiscussionState
    case AwaitVotes => VoteState
    case VoteShown => VoteState
    case Finishing => DoneState
    case Ended => DoneState
  }

  /**
   The game-state moves the program allows: a state is kept, or Starting is
   followed by Night, Night by Discussion, Discussion by Vote and Vote by
   Night, with Done reachable from Starting, Night and Vote only, and never
   left. `LoopOrder` fixes which move each step makes.
   */
  predicate NextPhase(s: State, t: State)
  {
    || t == s
    || (s == PregameState && t == StartingState)
    || (s == StartingState && (t == NightState || t == DoneState))
    || (s == NightState && (t == DiscussionState || t == DoneState))
    || (s == DiscussionState && t == VoteState)
    || (s == VoteState && (t == NightState || t == DoneState))
  }

  /**
   The order of positions the loop of `run` goes through, written from its
   code: after the starting pause and each vote's results the night opens,
   after the night's results the discussion, unless the game is over (`over`);
   the night waits for its signal; the discussion leads to the vote and the
   vote to its results; the final pause ends the loop. A signal during a
   pause leaves the loop where it is.
   */
  predicate LoopOrder(pc: Pc, ev: Event, over: bool, next: Pc)
  {
    match pc
    case Lobby => next == Revealing
    case Revealing | NightShown | VoteShown =>
      next == if ev == Signalled then pc
              else if over then Finishing
              else if pc == NightShown then AwaitSkips
              else AwaitNight
    case AwaitNight => next == if ev == Signalled then NightShown else AwaitNight
    case AwaitSkips => next == AwaitVotes
    case AwaitVotes => next == VoteShown
    case Finishing => next == if ev == Signalled then Finishing else Ended
    case Ended => next == Ended
  }

  /** Sends each connected roster player its view and records it as its last payload. */
  function Announce(g: Game, view: Player -> View): (r: (Game, Outbox))
    ensures r.0.state == g.state
    ensures r.0 == g.(players := r.0.players, dropped := r.0.dropped)
    ensures PayloadsOnly(g.players, r.0.players) && PayloadsOnly(g.dropped, r.0.dropped)
  {
    var out := Broadcast(g.players, IsConnected, view);
    (Deliver(g, out), out)
  }

  /** An announcement reaches every connected roster player with its view, and nobody else. */
  lemma AnnounceReaches(g: Game, view: Player -> View)
    ensures forall p :: p in g.players && p.connected ==> Delivery(p.id, view(p)) in Announce(g, view).1
    ensures forall d :: d in Announce(g, view).1 ==> exists p :: p in g.players && p.connected && d == Delivery(p.id, view(p))
  {
    BroadcastReaches(g.players, IsConnected, view);
  }

  /** Payload changes do not change the role counts. */
  lemma {:induction false} CountRoleIgnoresPayloads(a: seq<Player>, b: seq<Player>, c: Role)
    requires PayloadsOnly(a, b)
    ensures CountRole(b, c) == CountRole(a, c)
  {
    if |a| > 0 {
      assert PayloadsOnly(a[1..], b[1..]) by {
        forall i | 0 <= i < |a[1..]| ensures b[1..][i] == a[1..][i].(lastPayload := b[1..][i].lastPayload) {
          assert b[1..][i] == b[i + 1] && a[1..][i] == a[i + 1];
        }
      }
      CountRoleIgnoresPayloads(a[1..], b[1..], c);
    }
  }

  /** Payload changes do not decide whether the game is over. */
  lemma OverIgnoresPayloads(a: seq<Player>, b: seq<Player>)
    requires PayloadsOnly(a, b)
    ensures GameIsOver(b) == GameIsOver(a)
  {
    AliveSplits(a);
    AliveSplits(b);
    assert Tally(a) == Tally(b) by {
      FilterIgnoresPayloads(a, b, IsAliveMafia);
      FilterIgnoresPayloads(a, b, IsAliveGood);
    }
  }

  /** Filtering on a predicate that ignores payloads keeps the same number of players. */
  lemma {:induction false} FilterIgnoresPayloads(a: seq<Player>, b: seq<Player>, keep: Player -> bool)
    requires PayloadsOnly(a, b)
    requires keep == IsAliveMafia || keep == IsAliveGood
    ensures |Filter(b, keep)| == |Filter(a, keep)|
  {
    if |a| > 0 {
      assert PayloadsOnly(a[1..], b[1..]) by {
        forall i | 0 <= i < |a[1..]| ensures b[1..][i] == a[1..][i].(lastPayload := b[1..][i].lastPayload) {
          assert b[1..][i] == b[i + 1] && a[1..][i] == a[i + 1];
        }
      }
      assert keep(b[0]) == keep(a[0]);
      FilterIgnoresPayloads(a[1..], b[1..], keep);
    }
  }

  /**
   The roster `run` keeps, with the roles dealt: the named and connected
   players in roster order; everyone else joins the dropped players.
   */
  function Deal(g: Game, mafia: seq<nat>, detective: nat, doctor: nat): (r: Game)
    requires AllCitizens(g.players)
    requires ValidPicks(NamedAndConnectedPlayers(g.players), mafia, detective, doctor)
    ensures r == g.(state := StartingState, players := r.players, dropped := r.dropped)
    ensures |r.players| == NamedAndConnectedPlayers(g.players)
    ensures forall i :: 0 <= i < |r.players| ==>
              r.players[i] == Filter(g.players, IsNamedAndConnected)[i].(role := r.players[i].role)
    ensures forall i :: 0 <= i < |r.players| ==> r.players[i].named && r.players[i].connected
    ensures CountRole(r.players, Mafia) == |r.players| / 3
    ensures CountRole(r.players, Detective) == 1 && CountRole(r.players, Doctor) == 1
    ensures r.dropped == g.dropped + Filter(g.players, IsUnnamedOrDisconnected)
    ensures |r.dropped| == |g.dropped| + |g.players| - |r.players|
  {
    FilterSplit(g.players, IsNamedAndConnected, IsUnnamedOrDisconnected);
    var kept := Filter(g.players, IsNamedAndConnected);
    var dealt := AssignRoles(kept, mafia, detective, doctor);
    AssignRolesCounts(kept, mafia, detective, doctor);
    assert forall i :: 0 <= i < |dealt| ==> dealt[i].named && dealt[i].connected by {
      forall i | 0 <= i < |dealt| ensures dealt[i].named && dealt[i].connected {
        assert kept[i] in kept;
      }
    }
    g.(state := StartingState, players := dealt,
       dropped := g.dropped + Filter(g.players, IsUnnamedOrDisconnected))
  }

  /**
   Launches the game (the part of `run` before the loop): deals the roles to
   the kept roster and shows every player its role.
   */
  function Start(g: Game, mafia: seq<nat>, detective: nat, doctor: nat): (r: (Game, Pc, Outbox))
    requires AllCitizens(g.players)
    requires ValidPicks(NamedAndConnectedPlayers(g.players), mafia, detective, doctor)
    ensures r.1 == Revealing && r.0.state == StartingState
    ensures r.0.nightActions == g.nightActions && r.0.votes == g.votes && r.0.skips == g.skips
    ensures PayloadsOnly(Deal(g, mafia, detective, doctor).players, r.0.players)
    ensures PayloadsOnly(Deal(g, mafia, detective, doctor).dropped, r.0.dropped)
    ensures CountRole(r.0.players, Mafia) == |r.0.players| / 3
    ensures CountRole(r.0.players, Detective) == 1 && CountRole(r.0.players, Doctor) == 1
    ensures forall d :: d in r.2 ==> d.view.mode == InfoMode
  {
    var dealt := Deal(g, mafia, detective, doctor);
    var view := (p: Player) => StartingView(dealt, p);
    var shown := Announce(dealt, view);
    assert forall d :: d in shown.1 ==> d.view.mode == InfoMode by {
      BroadcastReaches(dealt.players, IsConnected, view);
    }
    CountRoleIgnoresPayloads(dealt.players, shown.0.players, Mafia);
    CountRoleIgnoresPayloads(dealt.players, shown.0.players, Detective);
    CountRoleIgnoresPayloads(dealt.players, shown.0.players, Doctor);
    (shown.0, Revealing, shown.1)
  }

  /** The role reveal reaches every connected kept player, with its own role, and nobody else. */
  lemma StartShowsRoles(g: Game, mafia: seq<nat>, detective: nat, doctor: nat)
    requires AllCitizens(g.players)
    requires ValidPicks(NamedAndConnectedPlayers(g.players), mafia, detective, doctor)
    ensures var dealt := Deal(g, mafia, detective, doctor);
            var out := Start(g, mafia, detective, doctor).2;
            && (forall p :: p in dealt.players && p.connected ==> Delivery(p.id, StartingView(dealt, p)) in out)
            && (forall d :: d in out ==>
                  exists p :: p in dealt.players && p.connected && d == Delivery(p.id, StartingView(dealt, p)))
  {
    var dealt := Deal(g, mafia, detective, doctor);
    var view := (p: Player) => StartingView(dealt, p);
    assert Start(g, mafia, detective, doctor).2 == Announce(dealt, view).1;
    AnnounceReaches(dealt, view);
  }

  /** Shows the winner to every connected player and sets Done (`broadcastFinishState`). */
  function Finish(g: Game): (r: (Game, Pc, Outbox))
    ensures r.1 == Finishing && r.0 == g.(state := DoneState, players := r.0.players, dropped := r.0.dropped)
    ensures PayloadsOnly(g.players, r.0.players) && PayloadsOnly(g.dropped, r.0.dropped)
  {
    var shown := Announce(g, (p: Player) => FinishView(g));
    (shown.0.(state := DoneState), Finishing, shown.1)
  }

  /** Opens the night with an empty action map and shows the night prompt (`broadcastNightState`). */
  function OpenNight(g: Game): (r: (Game, Pc, Outbox))
    ensures r.1 == AwaitNight
    ensures r.0 == g.(nightActions := map[], state := NightState, players := r.0.players, dropped := r.0.dropped)
    ensures PayloadsOnly(g.players, r.0.players) && PayloadsOnly(g.dropped, r.0.dropped)
  {
    var begun := g.(nightActions := map[], state := NightState);
    var shown := Announce(begun, (p: Player) => NightView(begun, p));
    (shown.0, AwaitNight, shown.1)
  }

  /** Opens the discussion with no skips and shows its prompt (`broadcastDiscussionState`). */
  function OpenDiscussion(g: Game): (r: (Game, Pc, Outbox))
    ensures r.1 == AwaitSkips
    ensures r.0 == g.(skips := 0, state := DiscussionState, players := r.0.players, dropped := r.0.dropped)
    ensures PayloadsOnly(g.players, r.0.players) && PayloadsOnly(g.dropped, r.0.dropped)
  {
    var begun := g.(skips := 0, state := DiscussionState);
    var shown := Announce(begun, (p: Player) => DiscussionView(begun, p));
    (shown.0, AwaitSkips, shown.1)
  }

  /**
   The head of the loop in `run`: if the game is over, shows the winner and
   sets Done; otherwise opens the next round, a night with an empty action
   map or a discussion with no skips.
   */
  function Head(g: Game, next: State): (r: (Game, Pc, Outbox))
    requires next == NightState || next == DiscussionState
    ensures r.0.state == Phase(r.1)
    ensures r.1 == Finishing || r.1 == AwaitNight || r.1 == AwaitSkips
    ensures r.1 == Finishing <==> GameIsOver(g.players)
    ensures !GameIsOver(g.players) ==> r.0.state == next
    ensures PayloadsOnly(g.players, r.0.players) && PayloadsOnly(g.dropped, r.0.dropped)
    ensures r.1 == AwaitNight ==> r.0.nightActions == map[]
    ensures r.1 == AwaitSkips ==> r.0.skips == 0
    ensures r.1 != AwaitSkips ==> r.0.skips == g.skips
    ensures r.0.votes == g.votes
  {
    if GameIsOver(g.players) then Finish(g)
    else if next == NightState then OpenNight(g)
    else OpenDiscussion(g)
  }


  /** Resolves the night and shows its results (`calculateNight`, `broadcastNightResults`). */
  function ResolveNight(g: Game, order: seq<nat>): (r: (Game, Outbox))
    requires IsOrderOf(order, g.nightActions)
    ensures r.0.state == g.state
    ensures r.0 == CalculateNight(g, order).2.(players := r.0.players, dropped := r.0.dropped)
    ensures PayloadsOnly(CalculateNight(g, order).2.players, r.0.players)
    ensures PayloadsOnly(g.dropped, r.0.dropped)
  {
    var night := CalculateNight(g, order);
    var after := night.2;
    Announce(after, (p: Player) => NightResultsView(after, night.0, night.1, p))
  }

  /** Opens the vote with an empty vote map and shows the vote prompt (`broadcastVoteState`). */
  function OpenVote(g: Game): (r: (Game, Outbox))
    ensures r.0.state == VoteState
    ensures r.0 == g.(votes := map[], state := VoteState, players := r.0.players, dropped := r.0.dropped)
    ensures PayloadsOnly(g.players, r.0.players) && PayloadsOnly(g.dropped, r.0.dropped)
  {
    var begun := g.(votes := map[], state := VoteState);
    Announce(begun, (p: Player) => VoteView(begun, p))
  }

  /** Resolves the vote and shows its result (`calculateLynched`, `broadcastVoteResults`). */
  function ResolveVote(g: Game): (r: (Game, Outbox))
    ensures r.0.state == g.state
  {
    var lynch := CalculateLynched(g);
    var after := lynch.1;
    Announce(after, (p: Player) => VoteResultsView(after, lynch.0))
  }

  /** Only the lynched player's alive flag and the payloads change in the vote's resolution. */
  lemma ResolveVotePlayers(g: Game)
    ensures PayloadsOnly(CalculateLynched(g).1.players, ResolveVote(g).0.players)
    ensures PayloadsOnly(g.dropped, ResolveVote(g).0.dropped)
    ensures ResolveVote(g).0 == CalculateLynched(g).1.(players := ResolveVote(g).0.players,
                                                       dropped := ResolveVote(g).0.dropped)
  {
  }

  /** Sends the invitation to a new game (`broadcastResetState`). */
  function Reset(g: Game): (r: (Game, Outbox))
    ensures r.0.state == g.state
    ensures r.0 == g.(players := r.0.players, dropped := r.0.dropped)
    ensures PayloadsOnly(g.players, r.0.players) && PayloadsOnly(g.dropped, r.0.dropped)
    ensures forall d :: d in r.1 ==> d.view == ResetView
  {
    var view := (p: Player) => ResetView;
    assert forall d :: d in Broadcast(g.players, IsConnected, view) ==> d.view == ResetView by {
      BroadcastReaches(g.players, IsConnected, view);
    }
    Announce(g, view)
  }

  /** The reset invitation reaches every connected roster player, and nobody else. */
  lemma ResetReachesConnected(g: Game)
    ensures forall p :: p in g.players && p.connected ==> Delivery(p.id, ResetView) in Reset(g).1
    ensures forall d :: d in Reset(g).1 ==> exists p :: p in g.players && p.connected && d.to == p.id
  {
    BroadcastReaches(g.players, IsConnected, (p: Player) => ResetView);
  }

  /**
   The winner is shown to every connected roster player and to nobody else,
   and what they read names the Mafia as winners exactly when a Mafia is alive.
   */
  lemma FinishShowsWinner(g: Game)
    ensures forall p :: p in g.players && p.connected ==> Delivery(p.id, FinishView(g)) in Finish(g).2
    ensures forall d :: d in Finish(g).2 ==>
              d.view == FinishView(g) && exists p :: p in g.players && p.connected && d.to == p.id
    ensures forall d :: d in Finish(g).2 ==>
              (d.view.statements[0][..11] == "The mafia (" <==> MafiaAlive(g.players))
  {
    var view := (p: Player) => FinishView(g);
    assert Finish(g).2 == Announce(g, view).1;
    AnnounceReaches(g, view);
  }

  /**
   The night prompt reaches every connected roster player, each with its own
   night view, and nobody else; only the alive are asked to choose.
   */
  lemma OpenNightPrompts(g: Game)
    ensures var begun := g.(nightActions := map[], state := NightState);
            && (forall p :: p in g.players && p.connected ==> Delivery(p.id, NightView(begun, p)) in OpenNight(g).2)
            && (forall d :: d in OpenNight(g).2 ==>
                  exists p :: p in g.players && p.connected && d == Delivery(p.id, NightView(begun, p)))
    ensures forall d :: d in OpenNight(g).2 && d.view.mode == SelectMode ==>
              exists p :: p in g.players && p.connected && p.alive && d.to == p.id
  {
    var begun := g.(nightActions := map[], state := NightState);
    var view := (p: Player) => NightView(begun, p);
    assert OpenNight(g).2 == Announce(begun, view).1;
    AnnounceReaches(begun, view);
  }

  /**
   The discussion prompt reaches every connected roster player, each with its
   own discussion view, and nobody else; only the alive are offered "Skip".
   */
  lemma OpenDiscussionPrompts(g: Game)
    ensures var begun := g.(skips := 0, state := DiscussionState);
            && (forall p :: p in g.players && p.connected ==> Delivery(p.id, DiscussionView(begun, p)) in OpenDiscussion(g).2)
            && (forall d :: d in OpenDiscussion(g).2 ==>
                  exists p :: p in g.players && p.connected && d == Delivery(p.id, DiscussionView(begun, p)))
    ensures forall d :: d in OpenDiscussion(g).2 && d.view.options != [] ==>
              exists p :: p in g.players && p.connected && p.alive && d.to == p.id
  {
    var begun := g.(skips := 0, state := DiscussionState);
    var view := (p: Player) => DiscussionView(begun, p);
    assert OpenDiscussion(g).2 == Announce(begun, view).1;
    AnnounceReaches(begun, view);
  }

  /**
   The vote prompt reaches every connected roster player, each with its own
   vote view, and nobody else; only the alive are asked to vote.
   */
  lemma OpenVotePrompts(g: Game)
    ensures var begun := g.(votes := map[], state := VoteState);
            && (forall p :: p in g.players && p.connected ==> Delivery(p.id, VoteView(begun, p)) in OpenVote(g).1)
            && (forall d :: d in OpenVote(g).1 ==>
                  exists p :: p in g.players && p.connected && d == Delivery(p.id, VoteView(begun, p)))
    ensures forall d :: d in OpenVote(g).1 && d.view.mode == SelectMode ==>
              exists p :: p in g.players && p.connected && p.alive && d.to == p.id
  {
    var begun := g.(votes := map[], state := VoteState);
    var view := (p: Player) => VoteView(begun, p);
    assert OpenVote(g).1 == Announce(begun, view).1;
    AnnounceReaches(begun, view);
  }

  /**
   The night's results reach every connected roster player of the resolved
   game, each with its own morning view, and nobody else; everyone reads the
   same morning statements first.
   */
  lemma ResolveNightShows(g: Game, order: seq<nat>)
    requires IsOrderOf(order, g.nightActions)
    ensures var night := CalculateNight(g, order);
            var after := night.2;
            && (forall p :: p in after.players && p.connected ==>
                  Delivery(p.id, NightResultsView(after, night.0, night.1, p)) in ResolveNight(g, order).1)
            && (forall d :: d in ResolveNight(g, order).1 ==>
                  exists p :: p in after.players && p.connected && d == Delivery(p.id, NightResultsView(after, night.0, night.1, p)))
  {
    var night := CalculateNight(g, order);
    var after := night.2;
    var view := (p: Player) => NightResultsView(after, night.0, night.1, p);
    assert ResolveNight(g, order).1 == Announce(after, view).1;
    AnnounceReaches(after, view);
  }

  /**
   The vote's result reaches every connected roster player of the resolved
   game and nobody else; it says nobody was lynched exactly when nobody was.
   */
  lemma ResolveVoteShows(g: Game)
    ensures var lynch := CalculateLynched(g);
            && (forall p :: p in lynch.1.players && p.connected ==>
                  Delivery(p.id, VoteResultsView(lynch.1, lynch.0)) in ResolveVote(g).1)
            && (forall d :: d in ResolveVote(g).1 ==>
                  d.view == VoteResultsView(lynch.1, lynch.0)
                  && exists p :: p in lynch.1.players && p.connected && d.to == p.id)
    ensures forall d :: d in ResolveVote(g).1 ==>
              (d.view.statements[4] == "no one was lynched" <==> CalculateLynched(g).0.None?)
  {
    var lynch := CalculateLynched(g);
    var view := (p: Player) => VoteResultsView(lynch.1, lynch.0);
    assert ResolveVote(g).1 == Announce(lynch.1, view).1;
    AnnounceReaches(lynch.1, view);
  }

  /** The end of a fixed pause of `run`: the starting pause, a results pause or the final pause. */
  function Wake(g: Game, pc: Pc, ev: Event): (r: (Game, Pc, Outbox))
    requires pc == Revealing || pc == NightShown || pc == VoteShown || pc == Finishing
    requires g.state == Phase(pc)
    ensures r.0.state == Phase(r.1)
    ensures NextPhase(Phase(pc), Phase(r.1))
    ensures Phase(r.1) == DoneState && pc != Finishing ==> GameIsOver(g.players)
    ensures pc != Finishing && ev == Elapsed ==> (r.0.state == DoneState <==> GameIsOver(g.players))
    ensures ev == Elapsed && pc == Finishing ==> r.1 == Ended
    ensures ev == Elapsed && pc != Finishing ==>
              r.1 == if GameIsOver(g.players) then Finishing else if pc == NightShown then AwaitSkips else AwaitNight
    ensures ev == Signalled ==> r.1 == pc && r.0 == g && r.2 == []
  {
    if ev == Signalled then (g, pc, [])
    else if pc == Finishing then var shown := Reset(g); (shown.0, Ended, shown.1)
    else Head(g, if pc == NightShown then DiscussionState else NightState)
  }

  /** The end of the night's wait: only the completion signal resolves the night. */
  function NightEnds(g: Game, ev: Event, order: seq<nat>): (r: (Game, Pc, Outbox))
    requires g.state == NightState
    requires ev == Signalled ==> IsOrderOf(order, g.nightActions)
    ensures r.0.state == NightState
    ensures r.1 == if ev == Signalled then NightShown else AwaitNight
  {
    if ev == Signalled then var shown := ResolveNight(g, order); (shown.0, NightShown, shown.1)
    else (g, AwaitNight, [])
  }

  /** The end of the discussion's wait, by deadline or by signal: the vote opens. */
  function DiscussionEnds(g: Game): (r: (Game, Pc, Outbox))
    ensures r.0.state == VoteState && r.1 == AwaitVotes
  {
    var shown := OpenVote(g); (shown.0, AwaitVotes, shown.1)
  }

  /** The end of the vote's wait, by deadline or by signal: the vote is resolved. */
  function VoteEnds(g: Game): (r: (Game, Pc, Outbox))
    requires g.state == VoteState
    ensures r.0.state == VoteState && r.1 == VoteShown
  {
    var shown := ResolveVote(g); (shown.0, VoteShown, shown.1)
  }

  /** The end of a round's wait: the night, the discussion or the vote. */
  function EndWait(g: Game, pc: Pc, ev: Event, order: seq<nat>): (r: (Game, Pc, Outbox))
    requires pc == AwaitNight || pc == AwaitSkips || pc == AwaitVotes
    requires g.state == Phase(pc)
    requires pc == AwaitNight && ev == Signalled ==> IsOrderOf(order, g.nightActions)
    ensures r.0.state == Phase(r.1)
  {
    if pc == AwaitNight then NightEnds(g, ev, order)
    else if pc == AwaitSkips then DiscussionEnds(g)
    else VoteEnds(g)
  }

  /**
   Where each wait leads: the night stays put until its signal and then shows
   its results, the discussion always opens the vote, and the vote always
   shows its results.
   */
  lemma EndWaitTargets(g: Game, pc: Pc, ev: Event, order: seq<nat>)
    requires pc == AwaitNight || pc == AwaitSkips || pc == AwaitVotes
    requires g.state == Phase(pc)
    requires pc == AwaitNight && ev == Signalled ==> IsOrderOf(order, g.nightActions)
    ensures pc == AwaitNight ==> EndWait(g, pc, ev, order).1 == if ev == Signalled then NightShown else AwaitNight
    ensures pc == AwaitSkips ==> EndWait(g, pc, ev, order).1 == AwaitVotes
    ensures pc == AwaitVotes ==> EndWait(g, pc, ev, order).1 == VoteShown
  {
  }

  /**
   One step of the loop in `run` after the launch: the wait at `pc` ends with
   `ev`, and the loop runs up to its next wait. `order` is the iteration
   order of the night actions, used when the night is resolved.
   */
  function Step(g: Game, pc: Pc, ev: Event, order: seq<nat>): (r: (Game, Pc, Outbox))
    requires pc != Lobby
    requires g.state == Phase(pc)
    requires pc == AwaitNight && ev == Signalled ==> IsOrderOf(order, g.nightActions)
    ensures r.0.state == Phase(r.1) && r.1 != Lobby
    ensures NextPhase(Phase(pc), Phase(r.1))
    ensures Phase(r.1) == DoneState && pc != Finishing && pc != Ended ==> GameIsOver(g.players)
  {
    if pc == Ended then (g, pc, [])
    else if pc == AwaitNight || pc == AwaitSkips || pc == AwaitVotes then EndWait(g, pc, ev, order)
    else Wake(g, pc, ev)
  }

  /** Every step of the loop goes where the code of `run` goes next. */
  lemma StepFollowsLoop(g: Game, pc: Pc, ev: Event, order: seq<nat>)
    requires pc != Lobby
    requires g.state == Phase(pc)
    requires pc == AwaitNight && ev == Signalled ==> IsOrderOf(order, g.nightActions)
    ensures LoopOrder(pc, ev, GameIsOver(g.players), Step(g, pc, ev, order).1)
  {
    if pc == AwaitNight || pc == AwaitSkips || pc == AwaitVotes {
      assert Step(g, pc, ev, order) == EndWait(g, pc, ev, order);
      EndWaitTargets(g, pc, ev, order);
    } else if pc != Ended {
      assert Step(g, pc, ev, order) == Wake(g, pc, ev);
    }
  }

  /**
   The loop tests whether the game is over exactly after the starting pause,
   after each night's results and after each vote's results.
   */
  lemma OverTestedAtHead(g: Game, pc: Pc, order: seq<nat>)
    requires pc == Revealing || pc == NightShown || pc == VoteShown
    requires g.state == Phase(pc)
    ensures Step(g, pc, Elapsed, order).0.state == DoneState <==> GameIsOver(g.players)
  {
  }

  /** The discussion always leads to the vote: the game-over test is not made in between. */
  lemma DiscussionAlwaysVotes(g: Game, ev: Event, order: seq<nat>)
    requires g.state == DiscussionState
    ensures Step(g, AwaitSkips, ev, order).1 == AwaitVotes
    ensures Step(g, AwaitSkips, ev, order).0.state == VoteState
  {
  }

  /** The night has no deadline: only the completion signal ends its wait. */
  lemma NightWaitsForSignal(g: Game, order: seq<nat>)
    requires g.state == NightState
    ensures Step(g, AwaitNight, Elapsed, order) == (g, AwaitNight, [])
  {
  }

  /** Each round starts from empty submissions. */
  lemma RoundsStartEmpty(g: Game, pc: Pc, ev: Event, order: seq<nat>)
    requires pc != Lobby && g.state == Phase(pc)
    requires pc == AwaitNight && ev == Signalled ==> IsOrderOf(order, g.nightActions)
    ensures var r := Step(g, pc, ev, order);
            && (r.0.state == NightState && g.state != NightState ==> r.0.nightActions == map[])
            && (r.0.state == DiscussionState && g.state != DiscussionState ==> r.0.skips == 0)
            && (r.0.state == VoteState && g.state != VoteState ==> r.0.votes == map[])
  {
  }

  /** Only the resolutions change the players, and only as the resolver says. */
  lemma StepPlayers(g: Game, pc: Pc, ev: Event, order: seq<nat>)
    requires pc != Lobby && g.state == Phase(pc)
    requires pc == AwaitNight && ev == Signalled ==> IsOrderOf(order, g.nightActions)
    ensures pc == AwaitNight && ev == Signalled ==>
              PayloadsOnly(CalculateNight(g, order).2.players, Step(g, pc, ev, order).0.players)
    ensures pc == AwaitVotes ==> PayloadsOnly(CalculateLynched(g).1.players, Step(g, pc, ev, order).0.players)
    ensures pc != AwaitNight && pc != AwaitVotes ==> PayloadsOnly(g.players, Step(g, pc, ev, order).0.players)
    ensures PayloadsOnly(g.dropped, Step(g, pc, ev, order).0.dropped)
  {
    if pc == AwaitVotes {
      ResolveVotePlayers(g);
    }
  }

  /** Seat preservation composes. */
  lemma SeatsCompose(a: seq<Player>, b: seq<Player>, c: seq<Player>)
    requires SameSeats(a, b) && SameSeats(b, c)
    ensures SameSeats(a, c)
  {
  }

  /** The night's resolution keeps every seat. */
  lemma NightKeepsSeats(g: Game, order: seq<nat>)
    requires IsOrderOf(order, g.nightActions)
    ensures SameSeats(g.players, CalculateNight(g, order).2.players)
  {
  }

  /** The vote's resolution keeps every seat. */
  lemma LynchKeepsSeats(g: Game)
    ensures SameSeats(g.players, CalculateLynched(g).1.players)
  {
  }

  /** The loop never adds, removes or reorders players, and never changes a role. */
  lemma StepKeepsSeats(g: Game, pc: Pc, ev: Event, order: seq<nat>)
    requires pc != Lobby && g.state == Phase(pc)
    requires pc == AwaitNight && ev == Signalled ==> IsOrderOf(order, g.nightActions)
    ensures SameSeats(g.players, Step(g, pc, ev, order).0.players)
    ensures SameSeats(g.dropped, Step(g, pc, ev, order).0.dropped)
  {
    var after := Step(g, pc, ev, order).0;
    StepPlayers(g, pc, ev, order);
    PayloadsKeepSeats(g.dropped, after.dropped);
    if pc == AwaitNight && ev == Signalled {
      var resolved := CalculateNight(g, order).2.players;
      NightKeepsSeats(g, order);
      PayloadsKeepSeats(resolved, after.players);
      SeatsCompose(g.players, resolved, after.players);
    } else if pc == AwaitVotes {
      var resolved := CalculateLynched(g).1.players;
      LynchKeepsSeats(g);
      PayloadsKeepSeats(resolved, after.players);
      SeatsCompose(g.players, resolved, after.players);
    } else {
      PayloadsKeepSeats(g.players, after.players);
    }
  }

  /** Dealing moves players between the roster and the dropped players but forgets nobody. */
  lemma DealKeepsMembers(g: Game, mafia: seq<nat>, detective: nat, doctor: nat)
    requires AllCitizens(g.players)
    requires ValidPicks(NamedAndConnectedPlayers(g.players), mafia, detective, doctor)
    ensures KeepsMembers(g, Deal(g, mafia, detective, doctor))
  {
    var dealt := Deal(g, mafia, detective, doctor);
    var kept := Filter(g.players, IsNamedAndConnected);
    forall id | Lookup(g, id).Some? ensures Lookup(dealt, id).Some? {
      var p := Lookup(g, id).value;
      if p in g.players && IsNamedAndConnected(p) {
        var j :| 0 <= j < |kept| && kept[j] == p;
        assert dealt.players[j].id == id;
        assert dealt.players[j] in Members(dealt);
      } else if p in g.players {
        assert p in Filter(g.players, IsUnnamedOrDisconnected);
        assert p in Members(dealt);
      } else {
        assert p in g.dropped;
        assert p in Members(dealt);
      }
    }
  }

  /** Dealing moves players between the roster and the dropped players without duplicating an id. */
  lemma DealKeepsUnique(g: Game, mafia: seq<nat>, detective: nat, doctor: nat)
    requires AllCitizens(g.players)
    requires ValidPicks(NamedAndConnectedPlayers(g.players), mafia, detective, doctor)
    requires UniqueIds(Members(g))
    ensures UniqueIds(Members(Deal(g, mafia, detective, doctor)))
  {
    var dealt := Deal(g, mafia, detective, doctor);
    var kept := Filter(g.players, IsNamedAndConnected);
    var gone := Filter(g.players, IsUnnamedOrDisconnected);
    UniqueConcat(g.players, g.dropped);
    FilterUnique(g.players, IsNamedAndConnected);
    FilterUnique(g.players, IsUnnamedOrDisconnected);
    assert UniqueIds(dealt.players) by {
      forall i, j | 0 <= i < j < |dealt.players| ensures dealt.players[i].id != dealt.players[j].id {
        assert dealt.players[i].id == kept[i].id && dealt.players[j].id == kept[j].id;
      }
    }
    UniqueConcat(g.dropped, gone);
    forall p, q | p in dealt.players && q in dealt.dropped ensures p.id != q.id {
      var i :| 0 <= i < |dealt.players| && dealt.players[i] == p;
      var k := kept[i];
      assert k in kept && k.id == p.id;
      if q in gone && k.id == q.id {
        UniqueSameId(g.players, k, q);
        assert false;
      }
    }
    UniqueConcat(dealt.players, dealt.dropped);
  }

  /** The launch forgets nobody and keeps the members' ids distinct. */
  lemma StartKeepsMembers(g: Game, mafia: seq<nat>, detective: nat, doctor: nat)
    requires AllCitizens(g.players)
    requires ValidPicks(NamedAndConnectedPlayers(g.players), mafia, detective, doctor)
    ensures KeepsMembers(g, Start(g, mafia, detective, doctor).0)
    ensures UniqueIds(Members(g)) ==> UniqueIds(Members(Start(g, mafia, detective, doctor).0))
  {
    var dealt := Deal(g, mafia, detective, doctor);
    var h := Start(g, mafia, detective, doctor).0;
    DealKeepsMembers(g, mafia, detective, doctor);
    if UniqueIds(Members(g)) {
      DealKeepsUnique(g, mafia, detective, doctor);
    }
    PayloadsKeepSeats(dealt.players, h.players);
    PayloadsKeepSeats(dealt.dropped, h.dropped);
    SeatsKeepMembers(dealt, h);
  }
}

=== FILE: entry.dfy ===
/**
 The game's entry points used by a player's connection: joining
 (`addPlayer`), naming (`namePlayer`) and submitting a choice
 (`processAction`).
 */
module Entry {
  import opened Wrappers
  import opened Types
  import opened Roster
  import opened Aggregate
  import opened Views

  /** Every member's id is below the number of members, so that number is a fresh id. */
  predicate FreshIds(g: Game)
  {
    forall p :: p in Members(g) ==> p.id < |Members(g)|
  }

  /** A player as it joins: unnamed, Citizen, alive, connected, nothing sent yet. */
  function NewPlayer(id: nat): Player
  {
    Player(id, "", false, Citizen, true, true, EmptyView)
  }

  /** Appends a new player to the roster (`addPlayer`) under an id no member has. */
  function AddPlayer(g: Game): (r: (Game, nat))
    requires FreshIds(g)
    ensures r.0 == g.(players := g.players + [NewPlayer(r.1)])
    ensures forall p :: p in Members(g) ==> p.id != r.1
    ensures FreshIds(r.0)
  {
    var id := |Members(g)|;
    var g' := g.(players := g.players + [NewPlayer(id)]);
    assert Members(g') == g.players + [NewPlayer(id)] + g.dropped;
    assert forall p :: p in Members(g') ==> p in Members(g) || p == NewPlayer(id);
    (g', id)
  }

  /** `after` differs from `before` at most in last payloads and in the round data. */
  predicate SameRoster(before: Game, after: Game)
  {
    && after.code == before.code
    && after.state == before.state
    && PayloadsOnly(before.players, after.players)
    && PayloadsOnly(before.dropped, after.dropped)
  }

  /** Changes that keep every seat keep the ids fresh. */
  lemma SeatsKeepFresh(g: Game, h: Game)
    requires SameSeats(g.players, h.players) && SameSeats(g.dropped, h.dropped)
    requires FreshIds(g)
    ensures FreshIds(h)
  {
    SeatsKeepMembers(g, h);
    forall p | p in Members(h) ensures p.id < |Members(h)| {
      var k :| 0 <= k < |Members(h)| && Members(h)[k] == p;
      assert Members(g)[k] in Members(g);
    }
  }

  /** Delivering views only changes last payloads. */
  lemma DeliverKeepsRoster(g: Game, out: Outbox)
    ensures SameRoster(g, Deliver(g, out))
    ensures Deliver(g, out).nightActions == g.nightActions && Deliver(g, out).votes == g.votes
    ensures Deliver(g, out).skips == g.skips
  {
  }

  /** Who a round waits for does not depend on last payloads. */
  lemma RequiredIgnoresPayloads(before: Game, after: Game)
    requires SameRoster(before, after)
    ensures NightRequired(after.players) == NightRequired(before.players)
    ensures VoteRequired(after.players) == VoteRequired(before.players)
  {
    forall x | x in NightRequired(after.players) ensures x in NightRequired(before.players) {
      var p :| p in after.players && NeedsToAct(p) && p.id == x;
      var i :| 0 <= i < |after.players| && after.players[i] == p;
      assert before.players[i] in before.players;
    }
    forall x | x in NightRequired(before.players) ensures x in NightRequired(after.players) {
      var p :| p in before.players && NeedsToAct(p) && p.id == x;
      var i :| 0 <= i < |before.players| && before.players[i] == p;
      assert after.players[i] in after.players;
    }
    forall x | x in VoteRequired(after.players) ensures x in VoteRequired(before.players) {
      var p :| p in after.players && p.alive && p.id == x;
      var i :| 0 <= i < |after.players| && after.players[i] == p;
      assert before.players[i] in before.players;
    }
    forall x | x in VoteRequired(before.players) ensures x in VoteRequired(after.players) {
      var p :| p in before.players && p.alive && p.id == x;
      var i :| 0 <= i < |before.players| && before.players[i] == p;
      assert after.players[i] in after.players;
    }
  }

  /**
   Names the player with id `id` (`namePlayer`) and sends the lobby, with its
   Start option, to every named and connected roster player.
   */
  function NamePlayer(g: Game, id: nat, name: string): (r: (Game, Outbox))
    ensures r.0 == g.(players := r.0.players, dropped := r.0.dropped)
    ensures |r.0.players| == |g.players| && |r.0.dropped| == |g.dropped|
    ensures forall i :: 0 <= i < |g.players| ==>
              r.0.players[i] == if g.players[i].id == id
                                then g.players[i].(name := name, named := true, lastPayload := r.0.players[i].lastPayload)
                                else g.players[i].(lastPayload := r.0.players[i].lastPayload)
    ensures forall i :: 0 <= i < |g.dropped| ==>
              r.0.dropped[i] == if g.dropped[i].id == id
                                then g.dropped[i].(name := name, named := true, lastPayload := r.0.dropped[i].lastPayload)
                                else g.dropped[i].(lastPayload := r.0.dropped[i].lastPayload)
    ensures forall d :: d in r.1 ==> d.view.options == ["Start"] && d.view.mode == SelectMode
  {
    var named := ModifyMember(g, id, (p: Player) => p.(name := name, named := true));
    var view := (q: Player) => LobbyView(named);
    var out := Broadcast(named.players, IsNamedAndConnected, view);
    assert forall d :: d in out ==> d.view == LobbyView(named) by {
      BroadcastReaches(named.players, IsNamedAndConnected, view);
    }
    (Deliver(named, out), out)
  }

  /**
   The lobby goes to every named and connected roster player of the game with
   the new name, and to nobody else; each reads the game's code first and is
   offered only "Start".
   */
  lemma NamePlayerReaches(g: Game, id: nat, name: string)
    ensures var named := ModifyMember(g, id, (p: Player) => p.(name := name, named := true));
            && (forall p :: p in named.players && p.named && p.connected ==>
                  Delivery(p.id, LobbyView(named)) in NamePlayer(g, id, name).1)
            && (forall d :: d in NamePlayer(g, id, name).1 ==>
                  d.view == LobbyView(named) && exists p :: p in named.players && p.named && p.connected && d.to == p.id)
    ensures forall d :: d in NamePlayer(g, id, name).1 ==>
              d.view.statements[0] == "Lobby Code: " + g.code && d.view.options == ["Start"]
  {
    var named := ModifyMember(g, id, (p: Player) => p.(name := name, named := true));
    BroadcastReaches(named.players, IsNamedAndConnected, (q: Player) => LobbyView(named));
  }

  /** Naming keeps every seat. */
  lemma NamePlayerKeepsSeats(g: Game, id: nat, name: string)
    ensures SameSeats(g.players, NamePlayer(g, id, name).0.players)
    ensures SameSeats(g.dropped, NamePlayer(g, id, name).0.dropped)
  {
  }

  /** At night: thank the player, then store its action against the named player. */
  function ActAtNight(g: Game, id: nat, role: Role, choice: string): (r: (Game, bool, Outbox))
    ensures SameRoster(g, r.0)
    ensures Upserted(g.nightActions, id, Action(id, NameToPlayer(g.players, choice), ToActionType(role)),
                     r.0.nightActions)
    ensures r.0.votes == g.votes && r.0.skips == g.skips
    ensures r.1 <==> NightRequired(g.players) <= r.0.nightActions.Keys
    ensures r.2 == [Delivery(id, ThanksForActingView(g))]
  {
    var thanks := [Delivery(id, ThanksForActingView(g))];
    var delivered := Deliver(g, thanks);
    DeliverKeepsRoster(g, thanks);
    RequiredIgnoresPayloads(g, delivered);
    var acted := AddNightAction(delivered, Action(id, NameToPlayer(g.players, choice), ToActionType(role)));
    (acted.0, acted.1, thanks)
  }

  /** In the vote: thank the player, then store its vote against the named player. */
  function VoteAtVote(g: Game, id: nat, choice: string): (r: (Game, bool, Outbox))
    ensures SameRoster(g, r.0)
    ensures Upserted(g.votes, id, Vote(id, NameToPlayer(g.players, choice)), r.0.votes)
    ensures r.0.nightActions == g.nightActions && r.0.skips == g.skips
    ensures r.1 <==> VoteRequired(g.players) <= r.0.votes.Keys
    ensures r.2 == [Delivery(id, ThanksForVotingView(g))]
  {
    var thanks := [Delivery(id, ThanksForVotingView(g))];
    var delivered := Deliver(g, thanks);
    DeliverKeepsRoster(g, thanks);
    RequiredIgnoresPayloads(g, delivered);
    var voted := AddVote(delivered, Vote(id, NameToPlayer(g.players, choice)));
    (voted.0, voted.1, thanks)
  }

  /** In the discussion: count one more skip, then thank the player. */
  function SkipAtDiscussion(g: Game, id: nat): (r: (Game, bool, Outbox))
    ensures SameRoster(g, r.0)
    ensures r.0.skips == g.skips + 1 && r.0.nightActions == g.nightActions && r.0.votes == g.votes
    ensures r.1 <==> r.0.skips == |AlivePlayerList(g.players)|
    ensures |r.2| == 1 && r.2[0].to == id
  {
    var skipped := SkipDiscussion(g);
    var thanks := [Delivery(id, ThanksForSkippingView(skipped.0))];
    DeliverKeepsRoster(skipped.0, thanks);
    (Deliver(skipped.0, thanks), skipped.1, thanks)
  }

  /**
   A submission in a round is acknowledged to the submitter alone, with an
   info view that withdraws the choice and still shows the round's time.
   */
  lemma SubmissionAcknowledged(g: Game, id: nat, choice: string)
    requires Lookup(g, id).Some?
    ensures var out := ProcessAction(g, id, choice).2;
            g.state in {NightState, DiscussionState, VoteState} ==>
              && |out| == 1 && out[0].to == id
              && out[0].view.options == [] && out[0].view.mode == InfoMode && |out[0].view.statements| >= 4
              && out[0].view.statements[3] == match g.state
                   case NightState => "Time: Night-time"
                   case DiscussionState => "Time: Discussion-time"
                   case _ => "Time: Vote-time"
  {
    if g.state == DiscussionState {
      var skipped := SkipDiscussion(g);
      assert ProcessAction(g, id, choice).2 == [Delivery(id, ThanksForSkippingView(skipped.0))];
    }
  }

  /**
   Forwards a player's choice to the aggregator of the current round
   (`processAction`): at night an action of the player's role against the
   named player, in the discussion one more skip, in the vote a vote against
   the named player. The player's own alive flag is not consulted. In any
   other state nothing happens.
   */
  function ProcessAction(g: Game, id: nat, choice: string): (r: (Game, bool, Outbox))
    requires Lookup(g, id).Some?
    ensures SameRoster(g, r.0)
    ensures g.state !in {NightState, DiscussionState, VoteState} ==> r == (g, false, [])
    ensures g.state == NightState ==>
              && Upserted(g.nightActions, id,
                          Action(id, NameToPlayer(g.players, choice), ToActionType(Lookup(g, id).value.role)),
                          r.0.nightActions)
              && (r.1 <==> NightRequired(g.players) <= r.0.nightActions.Keys)
              && r.0.votes == g.votes && r.0.skips == g.skips
    ensures g.state == VoteState ==>
              && Upserted(g.votes, id, Vote(id, NameToPlayer(g.players, choice)), r.0.votes)
              && (r.1 <==> VoteRequired(g.players) <= r.0.votes.Keys)
              && r.0.nightActions == g.nightActions && r.0.skips == g.skips
    ensures g.state == DiscussionState ==>
              && r.0.skips == g.skips + 1
              && r.0.nightActions == g.nightActions && r.0.votes == g.votes
              && (r.1 <==> r.0.skips == |AlivePlayerList(g.players)|)
  {
    match g.state
    case NightState => ActAtNight(g, id, Lookup(g, id).value.role, choice)
    case DiscussionState => SkipAtDiscussion(g, id)
    case VoteState => VoteAtVote(g, id, choice)
    case _ => (g, false, [])
  }
}

=== FILE: resolve.dfy ===
/**
 The resolver of game.go: `gameIsOver`, `calculateLynched` and
 `calculateNight`. The source iterates the night-action map in Go's
 unspecified map order; here that order is an explicit parameter, and every
 property below holds for any order.
 */
module Resolve {
  import opened Wrappers
  import opened Types
  import opened Roster

  /** Alive Mafia and alive non-Mafia, counted in one pass as the source does. */
  function Tally(ps: seq<Player>): (r: (nat, nat))
    ensures r.0 == |Filter(ps, IsAliveMafia)|
    ensures r.1 == |Filter(ps, IsAliveGood)|
  {
    if |ps| == 0 then (0, 0)
    else
      var rest := Tally(ps[1..]);
      if !ps[0].alive then rest
      else if ps[0].role == Mafia then (rest.0 + 1, rest.1)
      else (rest.0, rest.1 + 1)
  }

  /** Every alive player is either an alive Mafia or an alive non-Mafia. */
  lemma {:induction false} AliveSplits(ps: seq<Player>)
    ensures |Filter(ps, IsAlive)| == |Filter(ps, IsAliveMafia)| + |Filter(ps, IsAliveGood)|
  {
    if |ps| > 0 {
      AliveSplits(ps[1..]);
    }
  }

  /**
   The game is over (`gameIsOver`) exactly when no Mafia is alive, or the
   alive Mafia make up at least half of the alive players.
   */
  function GameIsOver(ps: seq<Player>): (over: bool)
    ensures over <==> |Filter(ps, IsAliveMafia)| == 0
                      || 2 * |Filter(ps, IsAliveMafia)| >= |AlivePlayerList(ps)|
  {
    AliveSplits(ps);
    var t := Tally(ps);
    t.0 >= t.1 || t.0 == 0
  }

  /** A player for the examples below: named, connected, nothing sent yet. */
  function Sample(id: nat, role: Role, alive: bool): Player
  {
    Player(id, "", true, role, alive, true, EmptyView)
  }

  /** Two alive Mafia against two others: parity ends the game. */
  lemma ParityEndsGame()
    ensures GameIsOver([Sample(0, Mafia, true), Sample(1, Mafia, true),
                        Sample(2, Citizen, true), Sample(3, Doctor, true)])
  {
    var ps := [Sample(0, Mafia, true), Sample(1, Mafia, true), Sample(2, Citizen, true), Sample(3, Doctor, true)];
    assert ps[3..][1..] == [];
    assert Tally(ps[3..]) == (0, 1);
    assert ps[2..][1..] == ps[3..];
    assert Tally(ps[2..]) == (0, 2);
    assert ps[1..][1..] == ps[2..];
    assert Tally(ps[1..]) == (1, 2);
    assert Tally(ps) == (2, 2);
  }

  /** No alive Mafia against three others: the town has won. */
  lemma TownWinEndsGame()
    ensures GameIsOver([Sample(0, Mafia, false), Sample(1, Citizen, true),
                        Sample(2, Detective, true), Sample(3, Doctor, true)])
  {
    var ps := [Sample(0, Mafia, false), Sample(1, Citizen, true), Sample(2, Detective, true), Sample(3, Doctor, true)];
    assert ps[3..][1..] == [];
    assert Tally(ps[3..]) == (0, 1);
    assert ps[2..][1..] == ps[3..];
    assert Tally(ps[2..]) == (0, 2);
    assert ps[1..][1..] == ps[2..];
    assert Tally(ps[1..]) == (0, 3);
    assert Tally(ps) == (0, 3);
  }

  /** One alive Mafia against four others: the game goes on. */
  lemma MinorityContinues()
    ensures !GameIsOver([Sample(0, Mafia, true), Sample(1, Citizen, true), Sample(2, Citizen, true),
                         Sample(3, Detective, true), Sample(4, Doctor, true)])
  {
    var ps := [Sample(0, Mafia, true), Sample(1, Citizen, true), Sample(2, Citizen, true),
               Sample(3, Detective, true), Sample(4, Doctor, true)];
    assert ps[4..][1..] == [];
    assert Tally(ps[4..]) == (0, 1);
    assert ps[3..][1..] == ps[4..];
    assert Tally(ps[3..]) == (0, 2);
    assert ps[2..][1..] == ps[3..];
    assert Tally(ps[2..]) == (0, 3);
    assert ps[1..][1..] == ps[2..];
    assert Tally(ps[1..]) == (0, 4);
    assert Tally(ps) == (1, 4);
  }

  /** The voters, alive or not, whose vote names the player with id `id`. */
  function VotersFor(votes: map<nat, Vote>, id: nat): set<nat>
  {
    set a | a in votes && votes[a].target == Some(id)
  }

  /** The number of votes naming the player with id `id`. */
  function VoteCount(votes: map<nat, Vote>, id: nat): nat
  {
    |VotersFor(votes, id)|
  }

  /** Strict majority of the alive players: `len(alive)/2 + 1`. */
  function Majority(ps: seq<Player>): nat
  {
    |AlivePlayerList(ps)| / 2 + 1
  }

  /** The position of the first roster player with at least `t` votes, or |ps|. */
  function FirstReaching(ps: seq<Player>, votes: map<nat, Vote>, t: nat): (i: nat)
    ensures i <= |ps|
    ensures i < |ps| ==> VoteCount(votes, ps[i].id) >= t
    ensures forall j :: 0 <= j < i ==> VoteCount(votes, ps[j].id) < t
  {
    if |ps| == 0 then 0
    else if VoteCount(votes, ps[0].id) >= t then 0
    else 1 + FirstReaching(ps[1..], votes, t)
  }

  /**
   The lynch (`calculateLynched`): the first roster player whose votes reach
   the strict majority of the alive players is marked dead and returned;
   if nobody reaches it, nothing changes.
   */
  function CalculateLynched(g: Game): (r: (Option<nat>, Game))
    ensures r.0.None? ==> r.1 == g
    ensures r.0.None? <==> forall p :: p in g.players ==> VoteCount(g.votes, p.id) < Majority(g.players)
  {
    var i := FirstReaching(g.players, g.votes, Majority(g.players));
    if i < |g.players| then
      (Some(g.players[i].id), g.(players := g.players[i := g.players[i].(alive := false)]))
    else
      assert forall p :: p in g.players ==> VoteCount(g.votes, p.id) < Majority(g.players) by {
        forall p | p in g.players ensures VoteCount(g.votes, p.id) < Majority(g.players) {
          var j :| 0 <= j < |g.players| && g.players[j] == p;
        }
      }
      (None, g)
  }

  /** A lynch kills the first roster player whose votes reach the majority, and changes nothing else. */
  lemma LynchesFirstMajority(g: Game)
    ensures var r := CalculateLynched(g);
            r.0.Some? ==>
              exists i :: 0 <= i < |g.players| && g.players[i].id == r.0.value
                       && VoteCount(g.votes, g.players[i].id) >= Majority(g.players)
                       && (forall j :: 0 <= j < i ==> VoteCount(g.votes, g.players[j].id) < Majority(g.players))
                       && r.1 == g.(players := g.players[i := g.players[i].(alive := false)])
  {
  }

  /** The six votes of the split-vote example. */
  const SplitVotes := map[0 := Vote(0, Some(0)), 1 := Vote(1, Some(0)), 2 := Vote(2, Some(0)),
                          3 := Vote(3, Some(1)), 4 := Vote(4, Some(1)), 5 := Vote(5, Some(2))]

  lemma SplitVoteCounts(id: nat)
    ensures VoteCount(SplitVotes, id) == if id == 0 then 3 else if id == 1 then 2 else if id == 2 then 1 else 0
  {
    if id == 0 {
      assert VotersFor(SplitVotes, 0) == {0, 1, 2};
    } else if id == 1 {
      assert VotersFor(SplitVotes, 1) == {3, 4};
    } else if id == 2 {
      assert VotersFor(SplitVotes, 2) == {5};
    } else {
      assert VotersFor(SplitVotes, id) == {};
    }
  }

  /** Six alive players with votes 3, 2 and 1: the majority is 4, so nobody is lynched. */
  lemma SplitVoteNoLynch(g: Game)
    requires g.players == [Sample(0, Citizen, true), Sample(1, Citizen, true), Sample(2, Citizen, true),
                           Sample(3, Citizen, true), Sample(4, Citizen, true), Sample(5, Citizen, true)]
    requires g.votes == SplitVotes
    ensures CalculateLynched(g) == (None, g)
  {
    assert Majority(g.players) == 4 by {
      FilterAll(g.players, IsAlive);
    }
    assert forall p :: p in g.players ==> VoteCount(g.votes, p.id) < Majority(g.players) by {
      forall p | p in g.players ensures VoteCount(g.votes, p.id) < 4 {
        SplitVoteCounts(p.id);
      }
    }
  }

  /** The five votes of the majority example. */
  const MajorityVotes := map[0 := Vote(0, Some(0)), 1 := Vote(1, Some(0)), 2 := Vote(2, Some(0)),
                             3 := Vote(3, Some(1)), 4 := Vote(4, Some(1))]

  lemma MajorityVoteCount()
    ensures VoteCount(MajorityVotes, 0) == 3
  {
    assert VotersFor(MajorityVotes, 0) == {0, 1, 2};
  }

  /** Five alive players with votes 3 and 2: the majority is 3, so the first is lynched. */
  lemma MajorityLynches(g: Game)
    requires g.players == [Sample(0, Citizen, true), Sample(1, Citizen, true), Sample(2, Citizen, true),
                           Sample(3, Citizen, true), Sample(4, Citizen, true)]
    requires g.votes == MajorityVotes
    ensures CalculateLynched(g).0 == Some(0)
    ensures CalculateLynched(g).1.players == g.players[0 := Sample(0, Citizen, false)]
  {
    assert Majority(g.players) == 3 by {
      FilterAll(g.players, IsAlive);
    }
    assert VoteCount(g.votes, g.players[0].id) >= 3 by {
      MajorityVoteCount();
    }
    assert FirstReaching(g.players, g.votes, Majority(g.players)) == 0;
  }

  /** A sequence of players has at most as many distinct ids as players. */
  lemma {:induction false} IdSetBound(ps: seq<Player>)
    ensures |set p | p in ps :: p.id| <= |ps|
  {
    if |ps| > 0 {
      IdSetBound(ps[1..]);
      var rest := set p | p in ps[1..] :: p.id;
      assert (set p | p in ps :: p.id) == rest + {ps[0].id} by {
        assert forall p :: p in ps <==> p == ps[0] || p in ps[1..] by {
          assert ps == [ps[0]] + ps[1..];
        }
      }
    }
  }

  /**
   When only alive roster players have voted and ids are distinct, at most
   one player can reach the majority: the lynch does not depend on the roster
   order. (The source also counts votes stored by dead or dropped players,
   which can break this.)
   */
  lemma MajorityIsUnique(g: Game, i: nat, j: nat)
    requires UniqueIds(g.players)
    requires forall a :: a in g.votes ==> exists p :: p in g.players && p.alive && p.id == a
    requires i < j < |g.players|
    ensures VoteCount(g.votes, g.players[i].id) < Majority(g.players)
            || VoteCount(g.votes, g.players[j].id) < Majority(g.players)
  {
    var a, b := g.players[i].id, g.players[j].id;
    var si, sj := VotersFor(g.votes, a), VotersFor(g.votes, b);
    var alive := Filter(g.players, IsAlive);
    var ids := set p | p in alive :: p.id;
    assert si !! sj;
    assert si + sj <= ids by {
      forall x | x in si + sj ensures x in ids {
        var p :| p in g.players && p.alive && p.id == x;
        assert p in alive;
      }
    }
    IdSetBound(alive);
    assert |si + sj| == |si| + |sj|;
    assert |si + sj| <= |ids| by {
      SubsetCard(si + sj, ids);
    }
    var n := |AlivePlayerList(g.players)|;
    assert |si| + |sj| <= n;
    assert n < 2 * (n / 2 + 1);
  }

  lemma SubsetCard(a: set<nat>, b: set<nat>)
    requires a <= b
    ensures |a| <= |b|
  {
    assert b == a + (b - a);
  }

  /** The order of `acts`' keys that Go's map iteration happened to use: each key once. */
  predicate IsOrderOf(order: seq<nat>, acts: map<nat, Action>)
  {
    && (forall k :: k in order ==> k in acts)
    && (forall k :: k in acts ==> k in order)
    && forall i, j :: 0 <= i < j < |order| ==> order[i] != order[j]
  }

  /** The target of the last action of kind `kind` in `order`, or nil if there is none. */
  function LastTarget(acts: map<nat, Action>, order: seq<nat>, kind: ActionType): (r: Option<nat>)
    requires forall k :: k in order ==> k in acts
    ensures r.Some? ==> exists k :: k in order && acts[k].kind == kind && acts[k].target == r
    ensures (forall k :: k in order ==> acts[k].kind != kind) ==> r.None?
  {
    if |order| == 0 then None
    else
      var a := acts[order[|order| - 1]];
      if a.kind == kind then a.target
      else LastTarget(acts, order[..|order| - 1], kind)
  }

  /** The source's loop variables: the last Kill, Save and Investigate targets seen. */
  datatype NightScan = NightScan(dead: Option<nat>, saved: Option<nat>, investigated: Option<nat>)

  /** The source's loop over the night actions, visiting the keys in `order`. */
  function ScanActions(acts: map<nat, Action>, order: seq<nat>): (r: NightScan)
    requires forall k :: k in order ==> k in acts
    ensures r == NightScan(LastTarget(acts, order, Kill), LastTarget(acts, order, Save),
                           LastTarget(acts, order, Investigate))
  {
    if |order| == 0 then NightScan(None, None, None)
    else
      var scan := ScanActions(acts, order[..|order| - 1]);
      var a := acts[order[|order| - 1]];
      match a.kind
      case Kill => scan.(dead := a.target)
      case Save => scan.(saved := a.target)
      case Investigate => scan.(investigated := a.target)
      case Herping => scan
  }

  /** Marks the player with id `dead`, if any, as dead. */
  function KillPlayer(ps: seq<Player>, dead: Option<nat>): (r: seq<Player>)
    ensures |r| == |ps|
    ensures forall i :: 0 <= i < |ps| ==>
              r[i] == if Some(ps[i].id) == dead then ps[i].(alive := false) else ps[i]
  {
    match dead
    case None => ps
    case Some(id) => Modify(ps, id, (p: Player) => p.(alive := false))
  }

  /**
   The night (`calculateNight`): the victim is the last Kill target unless
   the last Save target is the same (a save cancels the kill); the
   investigated player is the last Investigate target whatever happened to
   the victim; only the victim's alive flag changes.
   */
  function CalculateNight(g: Game, order: seq<nat>): (r: (Option<nat>, Option<nat>, Game))
    requires IsOrderOf(order, g.nightActions)
    ensures r.0.Some? ==> exists k :: k in g.nightActions && g.nightActions[k].kind == Kill
                                      && g.nightActions[k].target == r.0
    ensures LastTarget(g.nightActions, order, Save) == LastTarget(g.nightActions, order, Kill) ==> r.0.None?
    ensures (LastTarget(g.nightActions, order, Save) != LastTarget(g.nightActions, order, Kill)
             ==> r.0 == LastTarget(g.nightActions, order, Kill))
    ensures r.1 == LastTarget(g.nightActions, order, Investigate)
    ensures r.2 == g.(players := r.2.players)
    ensures |r.2.players| == |g.players|
    ensures forall i :: 0 <= i < |g.players| ==>
              r.2.players[i] == if Some(g.players[i].id) == r.0 then g.players[i].(alive := false) else g.players[i]
  {
    var scan := ScanActions(g.nightActions, order);
    var dead := if scan.saved == scan.dead then None else scan.dead;
    (dead, scan.investigated, g.(players := KillPlayer(g.players, dead)))
  }

  /** No two actions of the same acting kind: one Mafia, one Detective, one Doctor acted. */
  predicate AtMostOnePerKind(acts: map<nat, Action>)
  {
    forall a, b :: a in acts && b in acts && acts[a].kind == acts[b].kind && acts[a].kind != Herping ==> a == b
  }

  /** The last action of a kind that occurs once is that one action. */
  lemma {:induction false} LastTargetOfSole(acts: map<nat, Action>, order: seq<nat>, kind: ActionType, k: nat)
    requires forall x :: x in order ==> x in acts
    requires k in order && acts[k].kind == kind
    requires forall x :: x in order && acts[x].kind == kind ==> x == k
    ensures LastTarget(acts, order, kind) == acts[k].target
  {
    var last := order[|order| - 1];
    if last != k {
      var init := order[..|order| - 1];
      assert order == init + [last];
      assert k in init;
      LastTargetOfSole(acts, init, kind, k);
    }
  }

  /** With one action of each acting kind, the last target of a kind does not depend on the order. */
  lemma LastTargetIgnoresOrder(acts: map<nat, Action>, o1: seq<nat>, o2: seq<nat>, kind: ActionType)
    requires IsOrderOf(o1, acts) && IsOrderOf(o2, acts)
    requires AtMostOnePerKind(acts) && kind != Herping
    ensures LastTarget(acts, o1, kind) == LastTarget(acts, o2, kind)
  {
    if k :| k in acts && acts[k].kind == kind {
      LastTargetOfSole(acts, o1, kind, k);
      LastTargetOfSole(acts, o2, kind, k);
    }
  }

  /**
   When at most one player of each acting kind submitted, the night's outcome
   is the same for every iteration order of the action map.
   */
  lemma NightIgnoresOrder(g: Game, o1: seq<nat>, o2: seq<nat>)
    requires IsOrderOf(o1, g.nightActions) && IsOrderOf(o2, g.nightActions)
    requires AtMostOnePerKind(g.nightActions)
    ensures CalculateNight(g, o1) == CalculateNight(g, o2)
  {
    LastTargetIgnoresOrder(g.nightActions, o1, o2, Kill);
    LastTargetIgnoresOrder(g.nightActions, o1, o2, Save);
    LastTargetIgnoresOrder(g.nightActions, o1, o2, Investigate);
    var r1, r2 := CalculateNight(g, o1), CalculateNight(g, o2);
    assert r1.2.players == r2.2.players;
  }

  /** Kill X, Save X, Investigate Y: nobody dies, Y is investigated, in every order. */
  lemma SaveCancelsKill(g: Game, order: seq<nat>, x: nat, y: nat)
    requires g.nightActions == map[0 := Action(0, Some(x), Kill), 1 := Action(1, Some(x), Save),
                                   2 := Action(2, Some(y), Investigate)]
    requires IsOrderOf(order, g.nightActions)
    ensures CalculateNight(g, order) == (None, Some(y), g)
  {
    var acts := g.nightActions;
    LastTargetOfSole(acts, order, Kill, 0);
    LastTargetOfSole(acts, order, Save, 1);
    LastTargetOfSole(acts, order, Investigate, 2);
    var r := CalculateNight(g, order);
    assert r.2.players == g.players;
  }

  /** Kill X, Save Z other than X, Investigate X: X dies and X is investigated, in every order. */
  lemma UnsavedKill(g: Game, order: seq<nat>, x: nat, z: nat)
    requires x != z
    requires g.nightActions == map[0 := Action(0, Some(x), Kill), 1 := Action(1, Some(z), Save),
                                   2 := Action(2, Some(x), Investigate)]
    requires IsOrderOf(order, g.nightActions)
    ensures CalculateNight(g, order).0 == Some(x) && CalculateNight(g, order).1 == Some(x)
  {
    var acts := g.nightActions;
    LastTargetOfSole(acts, order, Kill, 0);
    LastTargetOfSole(acts, order, Save, 1);
    LastTargetOfSole(acts, order, Investigate, 2);
  }
}

=== FILE: roles.dfy ===
/**
 Role assignment at the start of a game (`assignRoles`). The source draws
 random indices and accepts a draw only when that player is still a Citizen;
 the model takes the accepted draws as parameters, so every run of the
 rejection loops is one choice of `mafia`, `detective` and `doctor`.
 */
module Roles {
  import opened Types
  import opened Roster

  predicate AllCitizens(ps: seq<Player>)
  {
    forall p :: p in ps ==> p.role == Citizen
  }

  /** The number of players holding role `c`. */
  function CountRole(ps: seq<Player>, c: Role): nat
  {
    if |ps| == 0 then 0 else (if ps[0].role == c then 1 else 0) + CountRole(ps[1..], c)
  }

  /**
   Draws the loops can accept among n Citizens: n/3 distinct indices for
   Mafia, then a Detective index and a Doctor index, every one below n and no
   index drawn twice.
   */
  predicate ValidPicks(n: nat, mafia: seq<nat>, detective: nat, doctor: nat)
  {
    && |mafia| == n / 3
    && (forall i :: 0 <= i < |mafia| ==> mafia[i] < n)
    && (forall i, j :: 0 <= i < j < |mafia| ==> mafia[i] != mafia[j])
    && detective < n && detective !in mafia
    && doctor < n && doctor !in mafia && doctor != detective
  }

  /** One draw of a loop: the player at `i` gets `role` if it is still a Citizen. */
  function Promote(ps: seq<Player>, i: nat, role: Role): seq<Player>
    requires i < |ps|
  {
    if ps[i].role == Citizen then ps[i := ps[i].(role := role)] else ps
  }

  /** The accepted draws of one loop, in order. */
  function PromoteAll(ps: seq<Player>, picks: seq<nat>, role: Role): seq<Player>
    requires forall i :: 0 <= i < |picks| ==> picks[i] < |ps|
    decreases |picks|
  {
    if |picks| == 0 then ps
    else PromoteAll(Promote(ps, picks[0], role), picks[1..], role)
  }

  /** Changing one player's role moves one unit of count from the old role to the new. */
  lemma {:induction false} CountRoleUpdate(ps: seq<Player>, i: nat, p: Player, c: Role)
    requires i < |ps|
    ensures CountRole(ps[i := p], c) + (if ps[i].role == c then 1 else 0)
            == CountRole(ps, c) + (if p.role == c then 1 else 0)
  {
    if i == 0 {
      assert ps[i := p][1..] == ps[1..];
    } else {
      assert ps[i := p][1..] == ps[1..][i - 1 := p];
      CountRoleUpdate(ps[1..], i - 1, p, c);
    }
  }

  /**
   Promoting distinct Citizens to `role` gives each picked position that role,
   leaves every other player as it was, and moves |picks| from the Citizen
   count to the `role` count.
   */
  lemma {:induction false} PromoteAllEffect(ps: seq<Player>, picks: seq<nat>, role: Role)
    requires role != Citizen
    requires forall i :: 0 <= i < |picks| ==> picks[i] < |ps| && ps[picks[i]].role == Citizen
    requires forall i, j :: 0 <= i < j < |picks| ==> picks[i] != picks[j]
    ensures |PromoteAll(ps, picks, role)| == |ps|
    ensures forall i :: 0 <= i < |ps| ==>
              PromoteAll(ps, picks, role)[i] == if i in picks then ps[i].(role := role) else ps[i]
    ensures CountRole(PromoteAll(ps, picks, role), role) == CountRole(ps, role) + |picks|
    ensures CountRole(PromoteAll(ps, picks, role), Citizen) + |picks| == CountRole(ps, Citizen)
    ensures forall c :: c != role && c != Citizen ==> CountRole(PromoteAll(ps, picks, role), c) == CountRole(ps, c)
    decreases |picks|
  {
    if |picks| > 0 {
      var k := picks[0];
      var next := ps[k := ps[k].(role := role)];
      assert Promote(ps, k, role) == next;
      forall i | 0 <= i < |picks[1..]|
        ensures picks[1..][i] < |next| && next[picks[1..][i]].role == Citizen
      {
        assert picks[1..][i] == picks[i + 1] != k;
      }
      PromoteAllEffect(next, picks[1..], role);
      assert forall i :: i in picks <==> i == k || i in picks[1..] by {
        assert picks == [k] + picks[1..];
      }
      forall c ensures CountRole(next, c) + (if c == Citizen then 1 else 0) == CountRole(ps, c) + (if c == role then 1 else 0) {
        CountRoleUpdate(ps, k, ps[k].(role := role), c);
      }
    }
  }

  /**
   The roles of a started game (`assignRoles`): among n Citizens, exactly n/3
   become Mafia, one the Detective and one the Doctor, at the drawn
   positions; everyone else stays a Citizen, and nothing but roles changes.
   */
  function AssignRoles(ps: seq<Player>, mafia: seq<nat>, detective: nat, doctor: nat): (r: seq<Player>)
    requires AllCitizens(ps)
    requires ValidPicks(|ps|, mafia, detective, doctor)
    ensures |r| == |ps|
    ensures forall i :: 0 <= i < |ps| ==> r[i] == ps[i].(role := r[i].role)
    ensures forall i :: 0 <= i < |ps| ==>
              r[i].role == if i in mafia then Mafia else if i == detective then Detective
                           else if i == doctor then Doctor else Citizen
  {
    var withMafia := PromoteAll(ps, mafia, Mafia);
    assert |withMafia| == |ps| && forall i :: 0 <= i < |ps| ==>
             withMafia[i] == if i in mafia then ps[i].(role := Mafia) else ps[i] by {
      PromoteAllEffect(ps, mafia, Mafia);
    }
    var withDetective := Promote(withMafia, detective, Detective);
    Promote(withDetective, doctor, Doctor)
  }

  /** `assignRoles` deals n/3 Mafia, one Detective, one Doctor, and leaves the rest Citizens. */
  lemma AssignRolesCounts(ps: seq<Player>, mafia: seq<nat>, detective: nat, doctor: nat)
    requires AllCitizens(ps)
    requires ValidPicks(|ps|, mafia, detective, doctor)
    ensures var r := AssignRoles(ps, mafia, detective, doctor);
            && CountRole(r, Mafia) == |ps| / 3
            && CountRole(r, Detective) == 1 && CountRole(r, Doctor) == 1
            && CountRole(r, Citizen) == |ps| - |ps| / 3 - 2
  {
    var withMafia := PromoteAll(ps, mafia, Mafia);
    InitialCounts(ps);
    PromoteAllEffect(ps, mafia, Mafia);
    var withDetective := Promote(withMafia, detective, Detective);
    PromoteOne(withMafia, detective, Detective);
    PromoteOne(withDetective, doctor, Doctor);
  }


  /** Promoting one Citizen moves one unit of count from Citizen to `role`. */
  lemma PromoteOne(ps: seq<Player>, i: nat, role: Role)
    requires i < |ps| && ps[i].role == Citizen && role != Citizen
    ensures Promote(ps, i, role) == ps[i := ps[i].(role := role)]
    ensures CountRole(Promote(ps, i, role), role) == CountRole(ps, role) + 1
    ensures CountRole(Promote(ps, i, role), Citizen) + 1 == CountRole(ps, Citizen)
    ensures forall c :: c != role && c != Citizen ==> CountRole(Promote(ps, i, role), c) == CountRole(ps, c)
  {
    forall c ensures CountRole(Promote(ps, i, role), c) + (if c == Citizen then 1 else 0)
                     == CountRole(ps, c) + (if c == role then 1 else 0) {
      CountRoleUpdate(ps, i, ps[i].(role := role), c);
    }
  }

  /** A roster of Citizens counts |ps| Citizens and no other role. */
  lemma InitialCounts(ps: seq<Player>)
    requires AllCitizens(ps)
    ensures CountRole(ps, Citizen) == |ps|
    ensures forall c :: c != Citizen ==> CountRole(ps, c) == 0
  {
    AllHold(ps);
    forall c | c != Citizen ensures CountRole(ps, c) == 0 {
      NoneHolds(ps, c);
    }
  }

  lemma {:induction false} NoneHolds(ps: seq<Player>, c: Role)
    requires forall p :: p in ps ==> p.role != c
    ensures CountRole(ps, c) == 0
  {
    if |ps| > 0 {
      assert ps[0] in ps;
      NoneHolds(ps[1..], c);
    }
  }

  lemma {:induction false} AllHold(ps: seq<Player>)
    requires AllCitizens(ps)
    ensures CountRole(ps, Citizen) == |ps|
  {
    if |ps| > 0 {
      assert ps[0] in ps;
      AllHold(ps[1..]);
    }
  }

  /**
   Roles can be assigned to n players exactly when n >= n/3 + 2, which holds
   exactly when n >= 2; with fewer players the source panics (no players)
   or draws forever (one player).
   */
  lemma RolesAssignableIff(n: nat)
    ensures (exists mafia, detective, doctor :: ValidPicks(n, mafia, detective, doctor)) <==> n >= n / 3 + 2
    ensures n >= n / 3 + 2 <==> n >= 2
  {
    if n >= 2 {
      var mafia := seq(n / 3, i requires 0 <= i < n / 3 => i);
      assert forall i :: 0 <= i < |mafia| ==> mafia[i] == i;
      assert n / 3 !in mafia && n / 3 + 1 !in mafia;
      assert ValidPicks(n, mafia, n / 3, n / 3 + 1);
    }
  }
}

=== FILE: roster.dfy ===
/**
 Roster helpers of game.go: name lookup, the alive lists used for options and
 majority arithmetic, the named-and-connected count that gates the start, and
 the role-to-action mapping.
 */
module Roster {
  import opened Wrappers
  import opened Types

  /** The role whose night action has kind `t`. */
  function ActingRole(t: ActionType): Role
  {
    match t
    case Herping => Citizen
    case Kill => Mafia
    case Investigate => Detective
    case Save => Doctor
  }

  /** The kind of night action a player of role `c` submits (`toActionType`). */
  function ToActionType(c: Role): (t: ActionType)
    ensures ActingRole(t) == c
    ensures t == Herping <==> c == Citizen
  {
    match c
    case Citizen => Herping
    case Mafia => Kill
    case Detective => Investigate
    case Doctor => Save
  }

  /** Distinct roles submit distinct kinds of action. */
  lemma ToActionTypeInjective(c: Role, d: Role)
    ensures ToActionType(c) == ToActionType(d) ==> c == d
  {
    assert ActingRole(ToActionType(c)) == c;
  }

  predicate IsAlive(p: Player) { p.alive }

  predicate IsDead(p: Player) { !p.alive }

  predicate IsNamedAndConnected(p: Player) { p.named && p.connected }

  predicate IsUnnamedOrDisconnected(p: Player) { !(p.named && p.connected) }

  predicate IsAliveMafia(p: Player) { p.alive && p.role == Mafia }

  predicate IsAliveGood(p: Player) { p.alive && p.role != Mafia }

  /** The alive players other than the one with id `self`. */
  function AliveExcept(self: nat): Player -> bool
  {
    (p: Player) => p.alive && p.id != self
  }

  /** The players of `ps` satisfying `keep`, in roster order (the source's append loops). */
  function Filter(ps: seq<Player>, keep: Player -> bool): (r: seq<Player>)
    ensures |r| <= |ps|
    ensures forall p :: p in r <==> p in ps && keep(p)
  {
    if |ps| == 0 then []
    else if keep(ps[0]) then [ps[0]] + Filter(ps[1..], keep)
    else Filter(ps[1..], keep)
  }

  /** Filtering distributes over concatenation: it keeps the roster order. */
  lemma {:induction false} FilterConcat(a: seq<Player>, b: seq<Player>, keep: Player -> bool)
    ensures Filter(a + b, keep) == Filter(a, keep) + Filter(b, keep)
  {
    if |a| == 0 {
      assert a + b == b;
    } else {
      assert (a + b)[1..] == a[1..] + b;
      FilterConcat(a[1..], b, keep);
    }
  }

  /** A filter that every player passes keeps the whole roster. */
  lemma {:induction false} FilterAll(ps: seq<Player>, keep: Player -> bool)
    requires forall p :: p in ps ==> keep(p)
    ensures Filter(ps, keep) == ps
  {
    if |ps| > 0 {
      FilterAll(ps[1..], keep);
    }
  }

  /** A filter and its complement together account for every player. */
  lemma {:induction false} FilterSplit(ps: seq<Player>, keep: Player -> bool, drop: Player -> bool)
    requires forall p :: p in ps ==> (drop(p) <==> !keep(p))
    ensures |Filter(ps, keep)| + |Filter(ps, drop)| == |ps|
  {
    if |ps| > 0 {
      FilterSplit(ps[1..], keep, drop);
    }
  }

  /** The names of `ps`, in order. */
  function Names(ps: seq<Player>): (r: seq<string>)
    ensures |r| == |ps|
    ensures forall i :: 0 <= i < |ps| ==> r[i] == ps[i].name
  {
    seq(|ps|, i requires 0 <= i < |ps| => ps[i].name)
  }

  /** The position of the first player satisfying `found`, or |ps| if there is none. */
  function FirstWhere(ps: seq<Player>, found: Player -> bool): (i: nat)
    ensures i <= |ps|
    ensures i < |ps| ==> found(ps[i])
    ensures forall j :: 0 <= j < i ==> !found(ps[j])
  {
    if |ps| == 0 then 0
    else if found(ps[0]) then 0
    else 1 + FirstWhere(ps[1..], found)
  }

  function HasName(name: string): Player -> bool
  {
    (p: Player) => p.name == name
  }

  function HasId(id: nat): Player -> bool
  {
    (p: Player) => p.id == id
  }

  /** The first roster player named `name` (`nameToPlayer`), or nil. */
  function NameToPlayer(ps: seq<Player>, name: string): (r: Option<nat>)
    ensures r.None? <==> forall p :: p in ps ==> p.name != name
    ensures r.Some? ==> exists i :: 0 <= i < |ps| && ps[i].id == r.value && ps[i].name == name
                                    && forall j :: 0 <= j < i ==> ps[j].name != name
  {
    var i := FirstWhere(ps, HasName(name));
    if i < |ps| then Some(ps[i].id) else None
  }

  /** The names of the alive players, in roster order (`alivePlayerList`). */
  function AlivePlayerList(ps: seq<Player>): (r: seq<string>)
    ensures |r| == |Filter(ps, IsAlive)|
  {
    Names(Filter(ps, IsAlive))
  }

  /**
   The names of the alive players other than the player with id `self`, in
   roster order (`alivePlayerSansSelfList`): the options of a selecting view.
   */
  function AlivePlayerSansSelfList(ps: seq<Player>, self: nat): (r: seq<string>)
    ensures |r| == |Filter(ps, AliveExcept(self))|
  {
    Names(Filter(ps, AliveExcept(self)))
  }

  /** A name is listed exactly when some listed player bears it. */
  lemma NamesOf(ps: seq<Player>, n: string)
    ensures n in Names(ps) <==> exists p :: p in ps && p.name == n
  {
    if n in Names(ps) {
      var i :| 0 <= i < |ps| && Names(ps)[i] == n;
      assert ps[i] in ps;
    }
    if p :| p in ps && p.name == n {
      var i :| 0 <= i < |ps| && ps[i] == p;
      assert Names(ps)[i] == n;
    }
  }

  /** The alive list names exactly the alive players. */
  lemma AliveListNames(ps: seq<Player>, n: string)
    ensures n in AlivePlayerList(ps) <==> exists p :: p in ps && p.alive && p.name == n
  {
    NamesOf(Filter(ps, IsAlive), n);
  }

  /** The options of a selecting view name exactly the other alive players. */
  lemma SansSelfListNames(ps: seq<Player>, self: nat, n: string)
    ensures n in AlivePlayerSansSelfList(ps, self) <==> exists p :: p in ps && p.alive && p.id != self && p.name == n
  {
    NamesOf(Filter(ps, AliveExcept(self)), n);
  }

  /** No two players of `ps` share an id. */
  predicate UniqueIds(ps: seq<Player>)
  {
    forall i, j :: 0 <= i < j < |ps| ==> ps[i].id != ps[j].id
  }

  /** Two rosters joined have distinct ids exactly when each has and no id is on both sides. */
  lemma UniqueConcat(a: seq<Player>, b: seq<Player>)
    ensures UniqueIds(a + b) <==> UniqueIds(a) && UniqueIds(b) && forall p, q :: p in a && q in b ==> p.id != q.id
  {
    var c := a + b;
    if UniqueIds(c) {
      forall i, j | 0 <= i < j < |a| ensures a[i].id != a[j].id {
        assert c[i] == a[i] && c[j] == a[j];
      }
      forall i, j | 0 <= i < j < |b| ensures b[i].id != b[j].id {
        assert c[|a| + i] == b[i] && c[|a| + j] == b[j];
      }
      forall p, q | p in a && q in b ensures p.id != q.id {
        var i :| 0 <= i < |a| && a[i] == p;
        var j :| 0 <= j < |b| && b[j] == q;
        assert c[i] == p && c[|a| + j] == q;
      }
    }
    if UniqueIds(a) && UniqueIds(b) && forall p, q :: p in a && q in b ==> p.id != q.id {
      forall i, j | 0 <= i < j < |c| ensures c[i].id != c[j].id {
        if j < |a| {
          assert c[i] == a[i] && c[j] == a[j];
        } else if i >= |a| {
          assert c[i] == b[i - |a|] && c[j] == b[j - |a|];
        } else {
          assert c[i] == a[i] && c[j] == b[j - |a|];
          assert a[i] in a && b[j - |a|] in b;
        }
      }
    }
  }

  /** Inserting a player whose id nobody has keeps the ids distinct. */
  lemma InsertFreshUnique(a: seq<Player>, x: Player, b: seq<Player>)
    requires UniqueIds(a + b) && forall p :: p in a + b ==> p.id != x.id
    ensures UniqueIds(a + [x] + b)
  {
    UniqueConcat(a, b);
    UniqueConcat(a, [x]);
    UniqueConcat(a + [x], b);
  }

  /** With distinct ids, two players of the roster that share an id are the same player. */
  lemma UniqueSameId(ps: seq<Player>, p: Player, q: Player)
    requires UniqueIds(ps) && p in ps && q in ps && p.id == q.id
    ensures p == q
  {
    var i :| 0 <= i < |ps| && ps[i] == p;
    var j :| 0 <= j < |ps| && ps[j] == q;
    assert i == j;
  }

  /** Filtering a roster with distinct ids keeps them distinct. */
  lemma {:induction false} FilterUnique(ps: seq<Player>, keep: Player -> bool)
    requires UniqueIds(ps)
    ensures UniqueIds(Filter(ps, keep))
  {
    if |ps| > 0 {
      assert ps == [ps[0]] + ps[1..];
      UniqueConcat([ps[0]], ps[1..]);
      FilterUnique(ps[1..], keep);
      if keep(ps[0]) {
        UniqueConcat([ps[0]], Filter(ps[1..], keep));
      }
    }
  }

  /**
   With distinct ids, the options offered to a player are the alive list less
   one name exactly when that player is itself alive on the roster.
   */
  lemma {:induction false} SansSelfCount(ps: seq<Player>, self: nat)
    requires UniqueIds(ps)
    ensures |AlivePlayerSansSelfList(ps, self)| + (if exists p :: p in ps && p.alive && p.id == self then 1 else 0)
            == |AlivePlayerList(ps)|
  {
    if |ps| > 0 {
      assert UniqueIds(ps[1..]) by {
        forall i, j | 0 <= i < j < |ps[1..]| ensures ps[1..][i].id != ps[1..][j].id {
          assert ps[1..][i] == ps[i + 1] && ps[1..][j] == ps[j + 1];
        }
      }
      SansSelfCount(ps[1..], self);
      if ps[0].id == self {
        forall p | p in ps[1..] ensures p.id != self {
          var j :| 0 <= j < |ps[1..]| && ps[1..][j] == p;
          assert ps[j + 1] == p;
        }
      }
      assert forall p :: p in ps <==> p == ps[0] || p in ps[1..] by {
        assert ps == [ps[0]] + ps[1..];
      }
    }
  }

  /** The number of named and connected players (`namedAndConnectedPlayers`). */
  function NamedAndConnectedPlayers(ps: seq<Player>): (n: nat)
    ensures n == |Filter(ps, IsNamedAndConnected)|
  {
    if |ps| == 0 then 0
    else (if ps[0].named && ps[0].connected then 1 else 0) + NamedAndConnectedPlayers(ps[1..])
  }

  /** Every player of the game, on the roster or dropped from it at the start. */
  function Members(g: Game): seq<Player>
  {
    g.players + g.dropped
  }

  /** The player with id `id`, looked up first on the roster, then among the dropped. */
  function Lookup(g: Game, id: nat): (r: Option<Player>)
    ensures r.Some? <==> exists p :: p in Members(g) && p.id == id
    ensures r.Some? ==> r.value in Members(g) && r.value.id == id
  {
    var i := FirstWhere(Members(g), HasId(id));
    if i < |Members(g)| then Some(Members(g)[i]) else None
  }

  /** The player with id `id` on the roster, or nil. */
  function RosterPlayer(ps: seq<Player>, id: nat): (r: Option<Player>)
    ensures r.Some? ==> r.value in ps && r.value.id == id
    ensures r.None? ==> forall p :: p in ps ==> p.id != id
  {
    var i := FirstWhere(ps, HasId(id));
    if i < |ps| then Some(ps[i]) else None
  }

  /** `ps` with every player whose id is `id` replaced by `f` of it. */
  function Modify(ps: seq<Player>, id: nat, f: Player -> Player): (r: seq<Player>)
    ensures |r| == |ps|
    ensures forall i :: 0 <= i < |ps| ==> r[i] == if ps[i].id == id then f(ps[i]) else ps[i]
  {
    seq(|ps|, i requires 0 <= i < |ps| => if ps[i].id == id then f(ps[i]) else ps[i])
  }

  /** Applies `f` to the player with id `id`, wherever it is kept. */
  function ModifyMember(g: Game, id: nat, f: Player -> Player): Game
  {
    g.(players := Modify(g.players, id, f), dropped := Modify(g.dropped, id, f))
  }

  /** `b` seats the same players as `a`, position by position: same ids, same roles. */
  predicate SameSeats(a: seq<Player>, b: seq<Player>)
  {
    && |b| == |a|
    && forall i :: 0 <= i < |a| ==> b[i].id == a[i].id && b[i].role == a[i].role
  }

  /** Every player `g` knows by id is still known to `h`. */
  ghost predicate KeepsMembers(g: Game, h: Game)
  {
    forall id :: Lookup(g, id).Some? ==> Lookup(h, id).Some?
  }

  /** Changes that keep every seat keep every member. */
  lemma SeatsKeepMembers(g: Game, h: Game)
    requires SameSeats(g.players, h.players) && SameSeats(g.dropped, h.dropped)
    ensures KeepsMembers(g, h)
    ensures forall k :: 0 <= k < |Members(g)| ==> Members(h)[k].id == Members(g)[k].id
    ensures UniqueIds(Members(g)) ==> UniqueIds(Members(h))
  {
    assert |Members(h)| == |Members(g)|;
    forall k | 0 <= k < |Members(g)| ensures Members(h)[k].id == Members(g)[k].id {
      if k < |g.players| {
        assert Members(h)[k] == h.players[k] && Members(g)[k] == g.players[k];
      } else {
        assert Members(h)[k] == h.dropped[k - |g.players|] && Members(g)[k] == g.dropped[k - |g.players|];
      }
    }
    forall id | Lookup(g, id).Some? ensures Lookup(h, id).Some? {
      var p :| p in Members(g) && p.id == id;
      var k :| 0 <= k < |Members(g)| && Members(g)[k] == p;
      assert Members(h)[k] in Members(h);
    }
  }

  /**
   With distinct ids among the members, an id stands for one player, as a
   pointer does: every member carrying it is the one `Lookup` finds.
   */
  lemma OnlyCarrier(g: Game, p: Player)
    requires UniqueIds(Members(g)) && p in Members(g)
    ensures Lookup(g, p.id) == Some(p)
  {
    UniqueSameId(Members(g), Lookup(g, p.id).value, p);
  }
}

=== FILE: session.dfy ===
/**
 The server side of one connection (`processWebsocketInteractions`): a
 session is either outside any game or inside one as one of its players,
 and each message it reads is dispatched by that mode and by the message
 kind. The registries the server keeps globally (`games` by code, `players`
 by reconnect token) are explicit parts of the world.
 */
module Sessions {
  import opened Wrappers
  import opened Types
  import opened Roster
  import opened Roles
  import opened Resolve
  import opened Views
  import opened Entry
  import opened Driver

  /** A message read from the connection; a reconnect carries its token already parsed. */
  datatype Message = Enter(choice: string) | Select(choice: string) | Reconnect(token: int)

  /** A player of a game: the game's position in the world and the player's id. */
  datatype PlayerRef = PlayerRef(room: nat, player: nat)

  /** What a connection's loop holds: no game, or its game and its player. */
  datatype Session = Outside | Inside(at: PlayerRef)

  /** A game together with the position of its `run` loop. */
  datatype Room = Room(game: Game, pc: Pc)

  /**
   Every game created so far (a game stays reachable from its sessions after
   it is unlisted), the registry of joinable codes and the reconnect directory.
   */
  datatype World = World(rooms: seq<Room>, listed: map<string, nat>, directory: map<int, PlayerRef>)

  /** The random draws a message may use: four code letters and the picks of `assignRoles`. */
  datatype Draws = Draws(code: seq<nat>, mafia: seq<nat>, detective: nat, doctor: nat)

  /** The outcome of one message: the world, the session, what was sent, and whether a round was signalled. */
  datatype Reply = Reply(world: World, session: Session, out: Outbox, signalled: bool)

  // ---------------------------------------------------------------------------
  // Game codes
  // ---------------------------------------------------------------------------

  predicate IsCodeLetter(c: char) { 'A' <= c <= 'Z' }

  /** Four draws of `rand.Intn(26)`. */
  predicate CodeDraws(draws: seq<nat>)
  {
    |draws| == 4 && forall i :: 0 <= i < 4 ==> draws[i] < 26
  }

  /**
   A new game (`makeNewGame`): its code is the four drawn letters, it waits
   in the lobby with no players and empty action and vote maps.
   */
  function MakeNewGame(draws: seq<nat>): (g: Game)
    requires CodeDraws(draws)
    ensures |g.code| == 4
    ensures forall i :: 0 <= i < 4 ==> IsCodeLetter(g.code[i]) && g.code[i] as int - 'A' as int == draws[i]
    ensures g.players == [] && g.dropped == [] && g.state == PregameState
    ensures g.nightActions == map[] && g.votes == map[] && g.skips == 0
  {
    var code := seq(4, i requires 0 <= i < 4 => (65 + draws[i]) as char);
    Game(code, [], [], PregameState, map[], map[], 0)
  }

  /** Every four-letter upper-case code can be drawn, and by one set of draws only. */
  lemma EveryCodeCanBeDrawn(code: string)
    requires |code| == 4 && forall i :: 0 <= i < 4 ==> IsCodeLetter(code[i])
    ensures exists draws :: CodeDraws(draws) && MakeNewGame(draws).code == code
    ensures forall draws :: CodeDraws(draws) && MakeNewGame(draws).code == code ==>
              forall i :: 0 <= i < 4 ==> draws[i] == code[i] as int - 'A' as int
  {
    var draws: seq<nat> := seq(4, i requires 0 <= i < 4 => code[i] as int - 'A' as int);
    assert CodeDraws(draws);
    var made := MakeNewGame(draws).code;
    assert forall i :: 0 <= i < 4 ==> made[i] == code[i];
    assert made == code;
  }

  // ---------------------------------------------------------------------------
  // Upper case (`strings.ToUpper`) as far as game codes can tell
  // ---------------------------------------------------------------------------

  /**
   The upper case of one character: a-z become A-Z, the dotless i and the
   long s become I and S; every other character keeps a value outside A-Z or
   stays what it is.
   */
  function UpperChar(c: char): char
  {
    if 'a' <= c <= 'z' then (c as int - 32) as char
    else if c == '\U{0131}' then 'I'
    else if c == '\U{017F}' then 'S'
    else c
  }

  /** The upper case of a string, character by character. */
  function Upper(s: string): (u: string)
    ensures |u| == |s|
  {
    seq(|s|, i requires 0 <= i < |s| => UpperChar(s[i]))
  }

  /** The characters a player may type for the code letter `l`. */
  predicate Spells(c: char, l: char)
  {
    || c == l
    || c as int == l as int + 32
    || (l == 'I' && c == '\U{0131}')
    || (l == 'S' && c == '\U{017F}')
  }

  lemma UpperCharSpells(c: char, l: char)
    requires IsCodeLetter(l)
    ensures UpperChar(c) == l <==> Spells(c, l)
  {
  }

  /** A typed choice names a code exactly when each character spells its letter. */
  lemma UpperNamesCode(s: string, code: string)
    requires forall i :: 0 <= i < |code| ==> IsCodeLetter(code[i])
    ensures Upper(s) == code <==> |s| == |code| && forall i :: 0 <= i < |s| ==> Spells(s[i], code[i])
  {
    if |s| == |code| {
      forall i | 0 <= i < |s| {
        UpperCharSpells(s[i], code[i]);
      }
      if forall i :: 0 <= i < |s| ==> Spells(s[i], code[i]) {
        assert forall i :: 0 <= i < |s| ==> Upper(s)[i] == code[i];
      }
    }
  }

  // ---------------------------------------------------------------------------
  // Well-formed worlds
  // ---------------------------------------------------------------------------

  /**
   A room's game is in the state its loop has set, no two of its members
   share an id, and a game in the lobby is all Citizens with fresh ids.
   */
  predicate ValidRoom(r: Room)
  {
    && r.game.state == Phase(r.pc)
    && UniqueIds(Members(r.game))
    && (r.pc == Lobby ==> AllCitizens(r.game.players) && FreshIds(r.game))
  }

  /**
   In a valid room an id names one member, so the roster's ids are distinct
   too: the hypothesis of `MajorityIsUnique` and `SansSelfCount` holds.
   */
  lemma ValidRoomIds(r: Room, p: Player)
    requires ValidRoom(r) && p in Members(r.game)
    ensures Lookup(r.game, p.id) == Some(p)
    ensures UniqueIds(r.game.players)
  {
    OnlyCarrier(r.game, p);
    UniqueConcat(r.game.players, r.game.dropped);
  }

  /** `at` names a game of the world and a player that game knows. */
  predicate ValidRef(w: World, at: PlayerRef)
  {
    at.room < |w.rooms| && Lookup(w.rooms[at.room].game, at.player).Some?
  }

  predicate ValidWorld(w: World)
  {
    && (forall i :: 0 <= i < |w.rooms| ==> ValidRoom(w.rooms[i]))
    && (forall c :: c in w.listed ==> w.listed[c] < |w.rooms|)
    && (forall t :: t in w.directory ==> ValidRef(w, w.directory[t]))
  }

  predicate ValidSession(w: World, s: Session)
  {
    s.Inside? ==> ValidRef(w, s.at)
  }

  /** `v` keeps every game of `w`, and every player each of them knows. */
  ghost predicate Grows(w: World, v: World)
  {
    && |w.rooms| <= |v.rooms|
    && forall i :: 0 <= i < |w.rooms| ==> KeepsMembers(w.rooms[i].game, v.rooms[i].game)
  }

  /** In a world that grows, every valid session stays valid. */
  lemma GrowsKeepsSessions(w: World, v: World, s: Session)
    requires Grows(w, v) && ValidSession(w, s)
    ensures ValidSession(v, s)
  {
  }

  /** Replaces the room at `i`. */
  function Put(w: World, i: nat, room: Room): World
    requires i < |w.rooms|
  {
    w.(rooms := w.rooms[i := room])
  }

  /** Replacing a room by a valid one that forgets nobody keeps the world valid. */
  lemma PutKeepsValid(w: World, i: nat, room: Room)
    requires ValidWorld(w) && i < |w.rooms|
    requires ValidRoom(room) && KeepsMembers(w.rooms[i].game, room.game)
    ensures ValidWorld(Put(w, i, room)) && Grows(w, Put(w, i, room))
  {
    var v := Put(w, i, room);
    forall t | t in v.directory ensures ValidRef(v, v.directory[t]) {
      assert ValidRef(w, w.directory[t]);
    }
  }

  /** Sending views keeps every seat, hence every member, fresh ids and a Citizens-only roster. */
  lemma DeliverKeepsSeats(g: Game, out: Outbox)
    ensures Deliver(g, out).state == g.state
    ensures SameSeats(g.players, Deliver(g, out).players) && SameSeats(g.dropped, Deliver(g, out).dropped)
    ensures KeepsMembers(g, Deliver(g, out))
    ensures FreshIds(g) ==> FreshIds(Deliver(g, out))
    ensures UniqueIds(Members(g)) ==> UniqueIds(Members(Deliver(g, out)))
    ensures AllCitizens(g.players) ==> AllCitizens(Deliver(g, out).players)
  {
    var h := Deliver(g, out);
    PayloadsKeepSeats(g.players, h.players);
    PayloadsKeepSeats(g.dropped, h.dropped);
    SeatsKeepMembers(g, h);
    if FreshIds(g) {
      SeatsKeepFresh(g, h);
    }
    SeatsKeepCitizens(g.players, h.players);
  }

  lemma SeatsKeepCitizens(a: seq<Player>, b: seq<Player>)
    requires SameSeats(a, b)
    ensures AllCitizens(a) ==> AllCitizens(b)
  {
    if AllCitizens(a) {
      forall p | p in b ensures p.role == Citizen {
        var i :| 0 <= i < |b| && b[i] == p;
        assert a[i] in a;
      }
    }
  }

  // ---------------------------------------------------------------------------
  // Connection flags
  // ---------------------------------------------------------------------------

  /** Sets the connected flag of the player with id `id`: the close handler, or a reconnect. */
  function SetConnected(g: Game, id: nat, on: bool): (r: Game)
    ensures r == g.(players := r.players, dropped := r.dropped)
    ensures |r.players| == |g.players| && |r.dropped| == |g.dropped|
    ensures forall i :: 0 <= i < |g.players| ==>
              r.players[i] == if g.players[i].id == id then g.players[i].(connected := on) else g.players[i]
    ensures forall i :: 0 <= i < |g.dropped| ==>
              r.dropped[i] == if g.dropped[i].id == id then g.dropped[i].(connected := on) else g.dropped[i]
  {
    ModifyMember(g, id, (p: Player) => p.(connected := on))
  }

  /** Flipping a connected flag keeps the room valid and forgets nobody. */
  lemma SetConnectedKeeps(room: Room, id: nat, on: bool)
    requires ValidRoom(room)
    ensures ValidRoom(room.(game := SetConnected(room.game, id, on)))
    ensures KeepsMembers(room.game, SetConnected(room.game, id, on))
  {
    var g := room.game;
    var h := SetConnected(g, id, on);
    assert SameSeats(g.players, h.players);
    assert SameSeats(g.dropped, h.dropped);
    SeatsKeepMembers(g, h);
    if room.pc == Lobby {
      SeatsKeepFresh(g, h);
      SeatsKeepCitizens(g.players, h.players);
    }
  }

  // ---------------------------------------------------------------------------
  // Outside a game
  // ---------------------------------------------------------------------------

  /** Adds a player to the lobby game at `ri` and asks it for a name (`addPlayer`). */
  function Join(w: World, ri: nat): (r: Reply)
    requires ValidWorld(w) && ri < |w.rooms| && w.rooms[ri].pc == Lobby
    ensures r.session.Inside? && r.session.at.room == ri
    ensures r.world.listed == w.listed && r.world.directory == w.directory
    ensures |r.world.rooms| == |w.rooms| && r.world.rooms == w.rooms[ri := r.world.rooms[ri]]
    ensures r.world.rooms[ri].pc == Lobby
    ensures !r.signalled
    ensures forall p :: p in Members(w.rooms[ri].game) ==> p.id != r.session.at.player
    ensures |r.out| == 1 && r.out[0].to == r.session.at.player && r.out[0].view.mode == EnterMode
    ensures var added := AddPlayer(w.rooms[ri].game);
            r.session.at.player == added.1 && r.world.rooms[ri].game == Deliver(added.0, r.out)
  {
    var room := w.rooms[ri];
    var added := AddPlayer(room.game);
    var out := [Delivery(added.1, PickNameView(added.0))];
    Reply(Put(w, ri, room.(game := Deliver(added.0, out))), Inside(PlayerRef(ri, added.1)), out, false)
  }

  /**
   The newcomer alone is asked for a name: its view shows the game's code
   first and "Pick a name" last, and offers nothing to choose.
   */
  lemma JoinAsksForName(w: World, ri: nat)
    requires ValidWorld(w) && ri < |w.rooms| && w.rooms[ri].pc == Lobby
    ensures var v := Join(w, ri).out[0].view;
            && |v.statements| >= 3
            && v.statements[0] == "Lobby Code: " + w.rooms[ri].game.code
            && v.statements[|v.statements| - 1] == "Pick a name"
            && v.options == []
  {
  }

  /** Joining keeps the world valid and yields a valid session. */
  lemma JoinKeepsValid(w: World, ri: nat)
    requires ValidWorld(w) && ri < |w.rooms| && w.rooms[ri].pc == Lobby
    ensures ValidWorld(Join(w, ri).world) && ValidSession(Join(w, ri).world, Join(w, ri).session)
    ensures Grows(w, Join(w, ri).world)
  {
    var room := w.rooms[ri];
    var added := AddPlayer(room.game);
    var out := [Delivery(added.1, PickNameView(added.0))];
    var h := Deliver(added.0, out);
    DeliverKeepsSeats(added.0, out);
    AddPlayerKeeps(room);
    PutKeepsValid(w, ri, room.(game := h));
  }

  /** Adding a player keeps a lobby room valid, forgets nobody and makes the newcomer known. */
  lemma AddPlayerKeeps(room: Room)
    requires ValidRoom(room) && room.pc == Lobby
    ensures var added := AddPlayer(room.game);
            && ValidRoom(room.(game := added.0))
            && KeepsMembers(room.game, added.0)
            && Lookup(added.0, added.1).Some?
  {
    var added := AddPlayer(room.game);
    assert AllCitizens(added.0.players) by {
      forall p | p in added.0.players ensures p.role == Citizen {
        assert p in room.game.players || p == NewPlayer(added.1);
      }
    }
    assert KeepsMembers(room.game, added.0) by {
      forall id | Lookup(room.game, id).Some? ensures Lookup(added.0, id).Some? {
        var p := Lookup(room.game, id).value;
        assert p in Members(added.0);
      }
    }
    assert Lookup(added.0, added.1).Some? by {
      assert NewPlayer(added.1) in Members(added.0);
    }
    assert UniqueIds(Members(added.0)) by {
      InsertFreshUnique(room.game.players, NewPlayer(added.1), room.game.dropped);
    }
  }

  /** A new lobby game registered under its code (`games[name] = g`), replacing any game listed there. */
  function Register(w: World, draws: seq<nat>): (v: World)
    requires CodeDraws(draws)
    ensures |v.rooms| == |w.rooms| + 1 && v.rooms[..|w.rooms|] == w.rooms
    ensures v.rooms[|w.rooms|] == Room(MakeNewGame(draws), Lobby)
    ensures v.listed == w.listed[MakeNewGame(draws).code := |w.rooms|]
    ensures v.directory == w.directory
  {
    var g := MakeNewGame(draws);
    w.(rooms := w.rooms + [Room(g, Lobby)], listed := w.listed[g.code := |w.rooms|])
  }

  lemma RegisterKeepsValid(w: World, draws: seq<nat>)
    requires ValidWorld(w) && CodeDraws(draws)
    ensures ValidWorld(Register(w, draws)) && Grows(w, Register(w, draws))
  {
    var g := MakeNewGame(draws);
    assert ValidRoom(Room(g, Lobby)) by {
      assert Members(g) == [];
    }
    AppendKeepsValid(w, Room(g, Lobby), w.listed[g.code := |w.rooms|]);
  }

  /** Appending a valid room, with every listed code naming a room, keeps the world valid. */
  lemma AppendKeepsValid(w: World, room: Room, listed: map<string, nat>)
    requires ValidWorld(w) && ValidRoom(room)
    requires forall c :: c in listed ==> listed[c] <= |w.rooms|
    ensures var v := World(w.rooms + [room], listed, w.directory);
            ValidWorld(v) && Grows(w, v)
  {
    var v := World(w.rooms + [room], listed, w.directory);
    assert forall i :: 0 <= i < |w.rooms| ==> v.rooms[i] == w.rooms[i];
    forall t | t in v.directory ensures ValidRef(v, v.directory[t]) {
      assert ValidRef(w, w.directory[t]);
    }
  }

  /** Reattaches the session to a known player, marks it connected and resends its last view. */
  function Rejoin(w: World, at: PlayerRef): (r: Reply)
    requires ValidWorld(w) && ValidRef(w, at)
    ensures r.session == Inside(at) && !r.signalled
    ensures r.out == [Delivery(at.player, Lookup(w.rooms[at.room].game, at.player).value.lastPayload)]
    ensures |r.world.rooms| == |w.rooms|
    ensures r.world == Put(w, at.room, r.world.rooms[at.room])
    ensures r.world.rooms[at.room].pc == w.rooms[at.room].pc
  {
    var room := w.rooms[at.room];
    var p := Lookup(room.game, at.player).value;
    var back := SetConnected(room.game, at.player, true);
    var out := [Delivery(at.player, p.lastPayload)];
    Reply(Put(w, at.room, room.(game := Deliver(back, out))), Inside(at), out, false)
  }

  /** The reconnected player is connected again and its last payload is what it was. */
  lemma RejoinRestores(w: World, at: PlayerRef)
    requires ValidWorld(w) && ValidRef(w, at)
    ensures var p := Lookup(w.rooms[at.room].game, at.player).value;
            var q := Lookup(Rejoin(w, at).world.rooms[at.room].game, at.player);
            q.Some? && q.value == p.(connected := true)
  {
    var room := w.rooms[at.room];
    var g := room.game;
    var p := Lookup(g, at.player).value;
    var back := SetConnected(g, at.player, true);
    var out := [Delivery(at.player, p.lastPayload)];
    var h := Deliver(back, out);
    var k := FirstWhere(Members(g), HasId(at.player));
    RejoinMembers(g, at.player, p.lastPayload);
    assert FirstWhere(Members(h), HasId(at.player)) == k by {
      FirstWhereIdSame(Members(g), Members(h), at.player);
    }
  }

  /** Reconnecting and delivering to `id` touches only the members carrying `id`, seat by seat. */
  lemma RejoinMembers(g: Game, id: nat, view: View)
    ensures var h := Deliver(SetConnected(g, id, true), [Delivery(id, view)]);
            && |Members(h)| == |Members(g)|
            && forall j :: 0 <= j < |Members(g)| ==>
                 Members(h)[j] == if Members(g)[j].id == id
                                  then Members(g)[j].(connected := true, lastPayload := view)
                                  else Members(g)[j]
  {
    var h := Deliver(SetConnected(g, id, true), [Delivery(id, view)]);
    assert |Members(h)| == |Members(g)|;
    forall j | 0 <= j < |Members(g)|
      ensures Members(h)[j] == if Members(g)[j].id == id
                               then Members(g)[j].(connected := true, lastPayload := view)
                               else Members(g)[j]
    {
      if j < |g.players| {
        assert Members(h)[j] == h.players[j] && Members(g)[j] == g.players[j];
      } else {
        assert Members(h)[j] == h.dropped[j - |g.players|] && Members(g)[j] == g.dropped[j - |g.players|];
      }
    }
  }

  /** Two rosters with the same ids in the same places find the same first position. */
  lemma {:induction false} FirstWhereIdSame(a: seq<Player>, b: seq<Player>, id: nat)
    requires |a| == |b| && forall j :: 0 <= j < |a| ==> a[j].id == b[j].id
    ensures FirstWhere(a, HasId(id)) == FirstWhere(b, HasId(id))
  {
    if |a| > 0 && a[0].id != id {
      FirstWhereIdSame(a[1..], b[1..], id);
    }
  }

  lemma RejoinKeepsValid(w: World, at: PlayerRef)
    requires ValidWorld(w) && ValidRef(w, at)
    ensures ValidWorld(Rejoin(w, at).world) && ValidSession(Rejoin(w, at).world, Rejoin(w, at).session)
    ensures Grows(w, Rejoin(w, at).world)
  {
    var room := w.rooms[at.room];
    var p := Lookup(room.game, at.player).value;
    var back := SetConnected(room.game, at.player, true);
    var out := [Delivery(at.player, p.lastPayload)];
    SetConnectedKeeps(room, at.player, true);
    DeliverKeepsSeats(back, out);
    var h := Deliver(back, out);
    assert KeepsMembers(room.game, h) by {
      forall id | Lookup(room.game, id).Some? ensures Lookup(h, id).Some? {
        assert Lookup(back, id).Some?;
      }
    }
    PutKeepsValid(w, at.room, room.(game := h));
  }

  /** A message on a session outside any game. */
  function ReceiveOutside(w: World, m: Message, d: Draws): (r: Reply)
    requires ValidWorld(w) && CodeDraws(d.code)
    ensures !r.signalled
    ensures r.session.Outside? ==> r == Reply(w, Outside, [], false)
  {
    match m
    case Enter(choice) =>
      var code := Upper(choice);
      if code in w.listed && w.rooms[w.listed[code]].game.state == PregameState then Join(w, w.listed[code])
      else Reply(w, Outside, [], false)
    case Select(_) =>
      RegisterKeepsValid(w, d.code);
      Join(Register(w, d.code), |w.rooms|)
    case Reconnect(token) =>
      if token in w.directory then Rejoin(w, w.directory[token]) else Reply(w, Outside, [], false)
  }

  // ---------------------------------------------------------------------------
  // Inside a game
  // ---------------------------------------------------------------------------

  /** Whether a Select launches the game: in the lobby, the choice "Start", at least five named and connected players. */
  predicate Launches(w: World, at: PlayerRef, choice: string)
  {
    && at.room < |w.rooms|
    && w.rooms[at.room].game.state == PregameState
    && choice == "Start"
    && NamedAndConnectedPlayers(w.rooms[at.room].game.players) >= 5
  }

  /** Whether the game is in one of the three rounds that take choices. */
  predicate InRound(g: Game)
  {
    g.state == NightState || g.state == VoteState || g.state == DiscussionState
  }

  /** An Enter inside a game: names the player (`namePlayer`) unless it is named already. */
  function NameSelf(w: World, at: PlayerRef, choice: string): (r: Reply)
    requires ValidWorld(w) && ValidRef(w, at)
    ensures r.session == Inside(at) && !r.signalled
    ensures Lookup(w.rooms[at.room].game, at.player).value.named ==> r == Reply(w, Inside(at), [], false)
  {
    var room := w.rooms[at.room];
    if !Lookup(room.game, at.player).value.named then
      var named := NamePlayer(room.game, at.player, choice);
      Reply(Put(w, at.room, room.(game := named.0)), Inside(at), named.1, false)
    else Reply(w, Inside(at), [], false)
  }

  /** The launch (`go g.run()`): the game leaves the lobby and its loop starts. */
  function Launch(w: World, at: PlayerRef, d: Draws): (r: Reply)
    requires ValidWorld(w) && ValidRef(w, at) && Launches(w, at, "Start")
    requires ValidPicks(NamedAndConnectedPlayers(w.rooms[at.room].game.players), d.mafia, d.detective, d.doctor)
    ensures r.session == Inside(at) && !r.signalled
    ensures |r.world.rooms| == |w.rooms| && r.world.rooms[at.room].pc == Revealing
    ensures var s := Start(w.rooms[at.room].game, d.mafia, d.detective, d.doctor);
            r.world == Put(w, at.room, Room(s.0, s.1)) && r.out == s.2
  {
    var room := w.rooms[at.room];
    assert room.pc == Lobby && AllCitizens(room.game.players);
    var started := Start(room.game, d.mafia, d.detective, d.doctor);
    Reply(Put(w, at.room, Room(started.0, started.1)), Inside(at), started.2, false)
  }

  /** A choice during a round, passed to `processAction`; the loop position does not move. */
  function Forward(w: World, at: PlayerRef, choice: string): (r: Reply)
    requires ValidWorld(w) && ValidRef(w, at)
    ensures r.session == Inside(at)
    ensures |r.world.rooms| == |w.rooms| && r.world.rooms[at.room].pc == w.rooms[at.room].pc
    ensures var acted := ProcessAction(w.rooms[at.room].game, at.player, choice);
            r.world == Put(w, at.room, w.rooms[at.room].(game := acted.0)) && r.signalled == acted.1 && r.out == acted.2
  {
    var room := w.rooms[at.room];
    var acted := ProcessAction(room.game, at.player, choice);
    Reply(Put(w, at.room, room.(game := acted.0)), Inside(at), acted.2, acted.1)
  }

  /** A message on a session inside a game. */
  function ReceiveInside(w: World, at: PlayerRef, m: Message, d: Draws): (r: Reply)
    requires ValidWorld(w) && ValidRef(w, at)
    requires m.Select? && Launches(w, at, m.choice) ==>
               ValidPicks(NamedAndConnectedPlayers(w.rooms[at.room].game.players), d.mafia, d.detective, d.doctor)
    ensures r.session == Inside(at)
    ensures r.signalled ==> m.Select? && InRound(w.rooms[at.room].game)
  {
    match m
    case Enter(choice) => NameSelf(w, at, choice)
    case Select(choice) =>
      if Launches(w, at, choice) then Launch(w, at, d)
      else if InRound(w.rooms[at.room].game) then Forward(w, at, choice)
      else Reply(w, Inside(at), [], false)
    case Reconnect(_) => Reply(w, Inside(at), [], false)
  }

  // ---------------------------------------------------------------------------
  // One message
  // ---------------------------------------------------------------------------

  /** A session whose game is over is cleared before its next message is read. */
  function Current(w: World, s: Session): (c: Session)
    requires ValidSession(w, s)
    ensures c == Outside || c == s
    ensures c == Outside <==> s.Outside? || w.rooms[s.at.room].game.state == DoneState
  {
    if s.Inside? && w.rooms[s.at.room].game.state == DoneState then Outside else s
  }

  /** Whether the draws suit the message: four code letters, and accepted picks if the game launches. */
  predicate DrawsFit(w: World, s: Session, m: Message, d: Draws)
    requires ValidSession(w, s)
  {
    && CodeDraws(d.code)
    && (Current(w, s).Inside? && m.Select? && Launches(w, s.at, m.choice) ==>
          ValidPicks(NamedAndConnectedPlayers(w.rooms[s.at.room].game.players), d.mafia, d.detective, d.doctor))
  }

  /** One message read by the connection's loop. */
  function Receive(w: World, s: Session, m: Message, d: Draws): (r: Reply)
    requires ValidWorld(w) && ValidSession(w, s) && DrawsFit(w, s, m, d)
    ensures r.signalled ==> s.Inside? && Current(w, s) == s && m.Select?
  {
    var c := Current(w, s);
    if c.Outside? then ReceiveOutside(w, m, d) else ReceiveInside(w, c.at, m, d)
  }

  /** The close handler: the session's player, if any, is marked disconnected. */
  function Close(w: World, s: Session): (v: World)
    requires ValidWorld(w) && ValidSession(w, s)
    ensures s.Outside? ==> v == w
    ensures s.Inside? ==> |v.rooms| == |w.rooms| && v == Put(w, s.at.room, v.rooms[s.at.room])
    ensures s.Inside? ==> v.rooms[s.at.room].pc == w.rooms[s.at.room].pc
  {
    if s.Inside? then
      var room := w.rooms[s.at.room];
      Put(w, s.at.room, room.(game := SetConnected(room.game, s.at.player, false)))
    else w
  }

  /**
   The game's own loop advances: the wait of room `ri` ends with `ev`. When
   the loop ends, whatever game is listed under its code is unlisted
   (`delete(games, g.name)`).
   */
  function Tick(w: World, ri: nat, ev: Event, order: seq<nat>): (v: (World, Outbox))
    requires ValidWorld(w) && ri < |w.rooms| && w.rooms[ri].pc != Lobby
    requires w.rooms[ri].pc == AwaitNight && ev == Signalled ==> IsOrderOf(order, w.rooms[ri].game.nightActions)
    ensures |v.0.rooms| == |w.rooms| && v.0.directory == w.directory
    ensures v.0.rooms[ri].pc == Ended && w.rooms[ri].pc != Ended ==>
              v.0.listed == w.listed - {w.rooms[ri].game.code}
    ensures v.0.rooms[ri].pc != Ended || w.rooms[ri].pc == Ended ==> v.0.listed == w.listed
    ensures var s := Step(w.rooms[ri].game, w.rooms[ri].pc, ev, order);
            v.0.rooms == w.rooms[ri := Room(s.0, s.1)] && v.1 == s.2
  {
    var room := w.rooms[ri];
    var stepped := Step(room.game, room.pc, ev, order);
    var moved := Put(w, ri, Room(stepped.0, stepped.1));
    if stepped.1 == Ended && room.pc != Ended then (moved.(listed := moved.listed - {room.game.code}), stepped.2)
    else (moved, stepped.2)
  }

  // ---------------------------------------------------------------------------
  // Properties of the dispatch
  // ---------------------------------------------------------------------------

  /** Once its game is Done, a session is treated as outside any game. */
  lemma DoneResetsSession(w: World, at: PlayerRef, m: Message, d: Draws)
    requires ValidWorld(w) && ValidRef(w, at) && DrawsFit(w, Inside(at), m, d)
    requires w.rooms[at.room].game.state == DoneState
    ensures DrawsFit(w, Outside, m, d)
    ensures Receive(w, Inside(at), m, d) == Receive(w, Outside, m, d)
  {
  }

  /**
   An Enter outside any game joins exactly when the upper-cased choice is the
   code of a listed game still in the lobby; otherwise nothing changes.
   */
  lemma EnterJoinsOnlyLobbies(w: World, choice: string, d: Draws)
    requires ValidWorld(w) && CodeDraws(d.code)
    ensures var r := Receive(w, Outside, Enter(choice), d);
            && (r.session.Inside? <==>
                  Upper(choice) in w.listed && w.rooms[w.listed[Upper(choice)]].game.state == PregameState)
            && (r.session.Outside? ==> r == Reply(w, Outside, [], false))
            && (r.session.Inside? ==> r.session.at.room == w.listed[Upper(choice)])
  {
  }

  /** A Select outside any game creates a lobby game under a fresh code entry and joins it. */
  lemma SelectCreatesGame(w: World, choice: string, d: Draws)
    requires ValidWorld(w) && CodeDraws(d.code)
    ensures var r := Receive(w, Outside, Select(choice), d);
            && |r.world.rooms| == |w.rooms| + 1
            && r.world.listed == w.listed[MakeNewGame(d.code).code := |w.rooms|]
            && r.session.Inside? && r.session.at.room == |w.rooms|
            && r.world.rooms[|w.rooms|].pc == Lobby
            && r.world.rooms[|w.rooms|].game.code == MakeNewGame(d.code).code
            && |r.world.rooms[|w.rooms|].game.players| == 1
  {
    var v := Register(w, d.code);
    RegisterKeepsValid(w, d.code);
    var r := Join(v, |w.rooms|);
    assert r.world.rooms[|w.rooms|].game == Deliver(AddPlayer(v.rooms[|w.rooms|].game).0, r.out);
  }

  /**
   A reconnect outside any game with a known token reattaches the session,
   reconnects the player and resends its stored last view unchanged; an
   unknown token changes nothing.
   */
  lemma ReconnectReplays(w: World, token: int, d: Draws)
    requires ValidWorld(w) && CodeDraws(d.code)
    ensures var r := Receive(w, Outside, Reconnect(token), d);
            && (token !in w.directory ==> r == Reply(w, Outside, [], false))
            && (token in w.directory ==>
                  var at := w.directory[token];
                  var p := Lookup(w.rooms[at.room].game, at.player).value;
                  && r.session == Inside(at)
                  && r.out == [Delivery(at.player, p.lastPayload)]
                  && Lookup(r.world.rooms[at.room].game, at.player) == Some(p.(connected := true)))
  {
    var r := Receive(w, Outside, Reconnect(token), d);
    if token in w.directory {
      assert r == Rejoin(w, w.directory[token]);
      RejoinRestores(w, w.directory[token]);
    } else {
      assert r == Reply(w, Outside, [], false);
    }
  }

  /** An Enter inside a game names the player the first time only. */
  lemma EnterNamesOnce(w: World, at: PlayerRef, choice: string, d: Draws)
    requires ValidWorld(w) && ValidRef(w, at) && CodeDraws(d.code)
    requires w.rooms[at.room].game.state != DoneState
    ensures var p := Lookup(w.rooms[at.room].game, at.player).value;
            var r := Receive(w, Inside(at), Enter(choice), d);
            && (p.named ==> r == Reply(w, Inside(at), [], false))
            && (!p.named ==> r.world == Put(w, at.room, w.rooms[at.room].(game := NamePlayer(w.rooms[at.room].game, at.player, choice).0)))
  {
    assert Receive(w, Inside(at), Enter(choice), d) == NameSelf(w, at, choice);
  }

  /**
   A Select inside a game launches it exactly when the game is in the lobby,
   the choice is "Start" and at least five players are named and connected.
   */
  lemma SelectLaunchesIff(w: World, at: PlayerRef, choice: string, d: Draws)
    requires ValidWorld(w) && ValidRef(w, at) && DrawsFit(w, Inside(at), Select(choice), d)
    requires w.rooms[at.room].game.state != DoneState
    ensures var r := Receive(w, Inside(at), Select(choice), d);
            && (w.rooms[at.room].pc == Lobby && r.world.rooms[at.room].pc != Lobby <==> Launches(w, at, choice))
            && (Launches(w, at, choice) ==> r.world.rooms[at.room].pc == Revealing)
  {
    if Launches(w, at, choice) {
      SelectLaunches(w, at, choice, d);
    } else if w.rooms[at.room].pc == Lobby {
      SelectStaysInLobby(w, at, choice, d);
    }
  }

  /** A launching Select moves the loop to the role reveal. */
  lemma SelectLaunches(w: World, at: PlayerRef, choice: string, d: Draws)
    requires ValidWorld(w) && ValidRef(w, at) && DrawsFit(w, Inside(at), Select(choice), d)
    requires w.rooms[at.room].game.state != DoneState && Launches(w, at, choice)
    ensures Receive(w, Inside(at), Select(choice), d).world.rooms[at.room].pc == Revealing
  {
    assert Current(w, Inside(at)) == Inside(at);
    assert Receive(w, Inside(at), Select(choice), d) == ReceiveInside(w, at, Select(choice), d);
  }

  /** Any other Select leaves a lobby game in the lobby. */
  lemma SelectStaysInLobby(w: World, at: PlayerRef, choice: string, d: Draws)
    requires ValidWorld(w) && ValidRef(w, at) && DrawsFit(w, Inside(at), Select(choice), d)
    requires !Launches(w, at, choice) && w.rooms[at.room].pc == Lobby
    ensures Receive(w, Inside(at), Select(choice), d).world == w
  {
    assert ValidRoom(w.rooms[at.room]);
    assert Receive(w, Inside(at), Select(choice), d) == Reply(w, Inside(at), [], false);
  }

  /**
   A Select inside a game that does not launch it reaches `processAction`
   only in the night, the discussion and the vote; in any other state nothing
   changes.
   */
  lemma SelectForwardsOnlyInRounds(w: World, at: PlayerRef, choice: string, d: Draws)
    requires ValidWorld(w) && ValidRef(w, at) && CodeDraws(d.code)
    requires w.rooms[at.room].game.state != DoneState && !Launches(w, at, choice)
    ensures var g := w.rooms[at.room].game;
            var r := Receive(w, Inside(at), Select(choice), d);
            && (!InRound(g) ==> r == Reply(w, Inside(at), [], false))
            && (InRound(g) ==>
                  var acted := ProcessAction(g, at.player, choice);
                  && r.world == Put(w, at.room, w.rooms[at.room].(game := acted.0))
                  && r.signalled == acted.1 && r.out == acted.2)
  {
  }

  /** A reconnect inside a game is ignored. */
  lemma ReconnectInsideIgnored(w: World, at: PlayerRef, token: int, d: Draws)
    requires ValidWorld(w) && ValidRef(w, at) && CodeDraws(d.code)
    requires w.rooms[at.room].game.state != DoneState
    ensures Receive(w, Inside(at), Reconnect(token), d) == Reply(w, Inside(at), [], false)
  {
  }

  /** Setting a connected flag changes exactly the members with that id, position by position. */
  lemma SetConnectedMembers(g: Game, id: nat, on: bool)
    ensures var h := SetConnected(g, id, on);
            && |Members(h)| == |Members(g)|
            && forall j :: 0 <= j < |Members(g)| ==>
                 Members(h)[j] == if Members(g)[j].id == id then Members(g)[j].(connected := on) else Members(g)[j]
  {
    var h := SetConnected(g, id, on);
    forall j | 0 <= j < |Members(g)|
      ensures Members(h)[j] == if Members(g)[j].id == id then Members(g)[j].(connected := on) else Members(g)[j]
    {
      if j < |g.players| {
        assert Members(h)[j] == h.players[j] && Members(g)[j] == g.players[j];
      } else {
        assert Members(h)[j] == h.dropped[j - |g.players|] && Members(g)[j] == g.dropped[j - |g.players|];
      }
    }
  }

  /** The close handler marks the session's player disconnected. */
  lemma CloseDisconnects(w: World, at: PlayerRef)
    requires ValidWorld(w) && ValidRef(w, at)
    ensures var q := Lookup(Close(w, Inside(at)).rooms[at.room].game, at.player);
            q.Some? && !q.value.connected
  {
    var g := w.rooms[at.room].game;
    var h := SetConnected(g, at.player, false);
    assert Close(w, Inside(at)).rooms[at.room].game == h;
    SetConnectedMembers(g, at.player, false);
    FirstWhereIdSame(Members(g), Members(h), at.player);
  }

  // ---------------------------------------------------------------------------
  // The world stays well formed
  // ---------------------------------------------------------------------------

  lemma ReceiveOutsideKeepsValid(w: World, m: Message, d: Draws)
    requires ValidWorld(w) && CodeDraws(d.code)
    ensures var r := ReceiveOutside(w, m, d);
            ValidWorld(r.world) && ValidSession(r.world, r.session) && Grows(w, r.world)
  {
    match m
    case Enter(choice) =>
      var code := Upper(choice);
      if code in w.listed && w.rooms[w.listed[code]].game.state == PregameState {
        JoinKeepsValid(w, w.listed[code]);
      }
    case Select(_) =>
      RegisterKeepsValid(w, d.code);
      var v := Register(w, d.code);
      JoinKeepsValid(v, |w.rooms|);
      GrowsCompose(w, v, Join(v, |w.rooms|).world);
    case Reconnect(token) =>
      if token in w.directory {
        RejoinKeepsValid(w, w.directory[token]);
      }
  }

  lemma GrowsCompose(u: World, v: World, w: World)
    requires Grows(u, v) && Grows(v, w)
    ensures Grows(u, w)
  {
  }

  lemma NameSelfKeepsValid(w: World, at: PlayerRef, choice: string)
    requires ValidWorld(w) && ValidRef(w, at)
    ensures var r := NameSelf(w, at, choice);
            ValidWorld(r.world) && ValidSession(r.world, r.session) && Grows(w, r.world)
  {
    var room := w.rooms[at.room];
    var g := room.game;
    if !Lookup(g, at.player).value.named {
      var h := NamePlayer(g, at.player, choice).0;
      NamePlayerKeepsSeats(g, at.player, choice);
      SeatsKeepMembers(g, h);
      if room.pc == Lobby {
        SeatsKeepFresh(g, h);
        SeatsKeepCitizens(g.players, h.players);
      }
      PutKeepsValid(w, at.room, room.(game := h));
    }
  }

  lemma LaunchKeepsValid(w: World, at: PlayerRef, d: Draws)
    requires ValidWorld(w) && ValidRef(w, at) && Launches(w, at, "Start")
    requires ValidPicks(NamedAndConnectedPlayers(w.rooms[at.room].game.players), d.mafia, d.detective, d.doctor)
    ensures var r := Launch(w, at, d);
            ValidWorld(r.world) && ValidSession(r.world, r.session) && Grows(w, r.world)
  {
    var g := w.rooms[at.room].game;
    var started := Start(g, d.mafia, d.detective, d.doctor);
    StartKeepsMembers(g, d.mafia, d.detective, d.doctor);
    PutKeepsValid(w, at.room, Room(started.0, started.1));
  }

  lemma ForwardKeepsValid(w: World, at: PlayerRef, choice: string)
    requires ValidWorld(w) && ValidRef(w, at) && InRound(w.rooms[at.room].game)
    ensures var r := Forward(w, at, choice);
            ValidWorld(r.world) && ValidSession(r.world, r.session) && Grows(w, r.world)
  {
    var room := w.rooms[at.room];
    var g := room.game;
    var h := ProcessAction(g, at.player, choice).0;
    PayloadsKeepSeats(g.players, h.players);
    PayloadsKeepSeats(g.dropped, h.dropped);
    SeatsKeepMembers(g, h);
    PutKeepsValid(w, at.room, room.(game := h));
  }

  lemma ReceiveInsideKeepsValid(w: World, at: PlayerRef, m: Message, d: Draws)
    requires ValidWorld(w) && ValidRef(w, at)
    requires m.Select? && Launches(w, at, m.choice) ==>
               ValidPicks(NamedAndConnectedPlayers(w.rooms[at.room].game.players), d.mafia, d.detective, d.doctor)
    ensures var r := ReceiveInside(w, at, m, d);
            ValidWorld(r.world) && ValidSession(r.world, r.session) && Grows(w, r.world)
  {
    match m
    case Enter(choice) => NameSelfKeepsValid(w, at, choice);
    case Select(choice) =>
      if Launches(w, at, choice) {
        LaunchKeepsValid(w, at, d);
      } else if InRound(w.rooms[at.room].game) {
        ForwardKeepsValid(w, at, choice);
      }
    case Reconnect(_) =>
  }

  /** Every message keeps the world well formed and the session valid, and forgets no player. */
  lemma ReceiveKeepsValid(w: World, s: Session, m: Message, d: Draws)
    requires ValidWorld(w) && ValidSession(w, s) && DrawsFit(w, s, m, d)
    ensures var r := Receive(w, s, m, d);
            ValidWorld(r.world) && ValidSession(r.world, r.session) && Grows(w, r.world)
  {
    var c := Current(w, s);
    if c.Outside? {
      ReceiveOutsideKeepsValid(w, m, d);
    } else {
      ReceiveInsideKeepsValid(w, c.at, m, d);
    }
  }

  /** Closing a connection keeps the world well formed and forgets no player. */
  lemma CloseKeepsValid(w: World, s: Session)
    requires ValidWorld(w) && ValidSession(w, s)
    ensures ValidWorld(Close(w, s)) && Grows(w, Close(w, s))
  {
    if s.Inside? {
      var room := w.rooms[s.at.room];
      SetConnectedKeeps(room, s.at.player, false);
      PutKeepsValid(w, s.at.room, room.(game := SetConnected(room.game, s.at.player, false)));
    }
  }

  /** The game's loop keeps the world well formed and forgets no player. */
  lemma TickKeepsValid(w: World, ri: nat, ev: Event, order: seq<nat>)
    requires ValidWorld(w) && ri < |w.rooms| && w.rooms[ri].pc != Lobby
    requires w.rooms[ri].pc == AwaitNight && ev == Signalled ==> IsOrderOf(order, w.rooms[ri].game.nightActions)
    ensures ValidWorld(Tick(w, ri, ev, order).0) && Grows(w, Tick(w, ri, ev, order).0)
  {
    var room := w.rooms[ri];
    var stepped := Step(room.game, room.pc, ev, order);
    StepKeepsSeats(room.game, room.pc, ev, order);
    SeatsKeepMembers(room.game, stepped.0);
    var moved := Put(w, ri, Room(stepped.0, stepped.1));
    PutKeepsValid(w, ri, Room(stepped.0, stepped.1));
    UnlistKeepsValid(moved, room.game.code);
  }

  /** Unlisting a code keeps the world valid. */
  lemma UnlistKeepsValid(w: World, code: string)
    requires ValidWorld(w)
    ensures ValidWorld(w.(listed := w.listed - {code}))
  {
    var v := w.(listed := w.listed - {code});
    forall t | t in v.directory ensures ValidRef(v, v.directory[t]) {
      assert ValidRef(w, w.directory[t]);
    }
  }

  /** A launch needs draws, and for five or more players accepted draws exist. */
  lemma LaunchDrawsExist(n: nat)
    requires n >= 5
    ensures exists mafia, detective, doctor :: ValidPicks(n, mafia, detective, doctor)
  {
    RolesAssignableIff(n);
  }
}

=== FILE: types.dfy ===
/**
 The data of one game of Mafia: players, their submissions, the game record
 and the views sent to players. Player pointers of the source are modelled by
 a stable player `id`; the submission maps are keyed by that id.
 */
module Types {
  import opened Wrappers

  /** A player's secret role (the `class` type and field of the source); the zero value is Citizen. */
  datatype Role = Citizen | Mafia | Detective | Doctor

  /** The kind of a night action, derived from the actor's role. */
  datatype ActionType = Kill | Save | Investigate | Herping

  /** Lifecycle states of a game, named as in the source. */
  datatype State = PregameState | StartingState | DiscussionState | VoteState | NightState | DoneState

  /** The `State` string of a view: "info", "select", "enter", "null", or unset. */
  datatype Mode = InfoMode | SelectMode | EnterMode | NullMode | NoMode

  /** The payload sent to one player: statements, selectable options and a mode. */
  datatype View = View(statements: seq<string>, options: seq<string>, mode: Mode)

  /** The zero value of a view, which a player holds before anything was sent to it. */
  const EmptyView := View([], [], NoMode)

  /**
   One player. `lastPayload` is the last view delivered to it, replayed on
   reconnection.
   */
  datatype Player = Player(
    id: nat,
    name: string,
    named: bool,
    role: Role,
    alive: bool,
    connected: bool,
    lastPayload: View)

  /** A night action: its actor, the target named by the actor (nil if none), its kind. */
  datatype Action = Action(actor: nat, target: Option<nat>, kind: ActionType)

  /** A day vote: its actor and the target named by the actor (nil if none). */
  datatype Vote = Vote(actor: nat, target: Option<nat>)

  /**
   One game. `players` is the roster; `dropped` holds the players that the
   start of the game removed from the roster (unnamed or disconnected), which
   their connections still refer to.
   */
  datatype Game = Game(
    code: string,
    players: seq<Player>,
    dropped: seq<Player>,
    state: State,
    nightActions: map<nat, Action>,
    votes: map<nat, Vote>,
    skips: int)

  /** One view sent to the player with id `to`. */
  datatype Delivery = Delivery(to: nat, view: View)

  type Outbox = seq<Delivery>
}

=== FILE: views.dfy ===
/**
 The views of game.go's `broadcast*`, `sendThanks*` and `namePlayer`
 functions, as pure functions from the game to the view each player gets, and
 the delivery of views, which records the last one a player received.
 */
module Views {
  import opened Wrappers
  import opened Types
  import opened Roster

  /** The role's name (`toString`). */
  function RoleName(c: Role): string
  {
    match c
    case Citizen => "Citizen"
    case Mafia => "Mafia"
    case Detective => "Detective"
    case Doctor => "Doctor"
  }

  /** The night prompt of a role (`actionString`). */
  function ActionPrompt(c: Role): string
  {
    match c
    case Citizen => "Please pretend to be doing something useful"
    case Mafia => "Please murder someone"
    case Detective => "Please investigate someone"
    case Doctor => "Please save someone"
  }

  /** The mode's string on the wire. */
  function ModeName(m: Mode): string
  {
    match m
    case InfoMode => "info"
    case SelectMode => "select"
    case EnterMode => "enter"
    case NullMode => "null"
    case NoMode => ""
  }

  /** `strings.Join`: the parts with `sep` between consecutive ones. */
  function Join(parts: seq<string>, sep: string): string
  {
    if |parts| == 0 then ""
    else if |parts| == 1 then parts[0]
    else parts[0] + sep + Join(parts[1..], sep)
  }

  /** A join of n parts is at least n-1 separators long. */
  lemma {:induction false} JoinLength(parts: seq<string>, sep: string)
    requires |parts| > 0
    ensures |Join(parts, sep)| >= (|parts| - 1) * |sep|
  {
    if |parts| > 1 {
      JoinLength(parts[1..], sep);
    }
  }

  /**
   The bytes a character takes in UTF-8 (section 3 of RFC 3629): one below
   U+0080, two below U+0800, three below U+10000, four above.
   */
  function Utf8Width(c: char): (n: nat)
    ensures 1 <= n <= 4
    ensures n == 1 <==> c as int < 0x80
  {
    if c as int < 0x80 then 1
    else if c as int < 0x800 then 2
    else if c as int < 0x10000 then 3
    else 4
  }

  /** The length of a string as Go's `len` measures it: its UTF-8 bytes. */
  function Utf8Len(s: string): (n: nat)
    ensures |s| <= n <= 4 * |s|
    ensures n == |s| <==> forall i :: 0 <= i < |s| ==> s[i] as int < 0x80
  {
    if s == [] then 0 else Utf8Width(s[0]) + Utf8Len(s[1..])
  }

  /** The names shown in the lobby: named and connected players, comma-separated. */
  function LobbyNames(g: Game): string
  {
    Join(Names(Filter(g.players, IsNamedAndConnected)), ", ")
  }

  /** The lobby statements (`unstartedSerializedStatement`). */
  function UnstartedStatement(g: Game): (r: seq<string>)
    ensures |r| == 2 || |r| == 3
    ensures r[..2] == ["Lobby Code: " + g.code, "Players: " + LobbyNames(g)]
    ensures |r| == 3 <==> Utf8Len(LobbyNames(g)) < 5
  {
    var all := LobbyNames(g);
    ["Lobby Code: " + g.code, "Players: " + all]
    + (if Utf8Len(all) < 5 then ["Require at least 5 players to start"] else [])
  }

  /**
   The lobby's quorum hint tests the length of the joined names, not the
   number of players: from four named players on it is never shown, though
   the start needs five.
   */
  lemma NoQuorumHintFromFourPlayers(g: Game)
    requires NamedAndConnectedPlayers(g.players) >= 4
    ensures |UnstartedStatement(g)| == 2
  {
    JoinLength(Names(Filter(g.players, IsNamedAndConnected)), ", ");
  }

  /** A lone player with a long name does not see the hint either. */
  lemma LongNameHidesQuorumHint(g: Game, p: Player)
    requires g.players == [p] && p.named && p.connected && p.name == "Alexander"
    ensures NamedAndConnectedPlayers(g.players) == 1
    ensures |UnstartedStatement(g)| == 2
  {
    assert Filter(g.players, IsNamedAndConnected) == [p];
    assert LobbyNames(g) == "Alexander";
  }

  /**
   The hint counts bytes, not characters: a lone "José" has four characters
   but five bytes, so the hint is not shown.
   */
  lemma AccentedNameHidesQuorumHint(g: Game, p: Player)
    requires g.players == [p] && p.named && p.connected && p.name == "José"
    ensures |p.name| == 4
    ensures |UnstartedStatement(g)| == 2
  {
    assert Filter(g.players, IsNamedAndConnected) == [p];
    assert LobbyNames(g) == "José";
    assert Utf8Len("José") == 5 by {
      assert Utf8Len("é") == 2;
    }
  }

  /** The statements every view of a started game opens with (`runningSerializedStatement`). */
  function RunningStatement(g: Game): seq<string>
  {
    ["Lobby Code: " + g.code,
     "Alive: " + Join(AlivePlayerList(g.players), ", "),
     "Dead: " + Join(Names(Filter(g.players, IsDead)), ", ")]
  }

  /** The role reveal sent to each connected player (`broadcastStartingState`). */
  function StartingView(g: Game, p: Player): (v: View)
    ensures v.mode == InfoMode && v.options == [] && |v.statements| == 5
    ensures v.statements[..3] == RunningStatement(g) && v.statements[3] == "You are a " + RoleName(p.role)
  {
    View(RunningStatement(g)
         + ["You are a " + RoleName(p.role),
            "Night-time will begin in 10 seconds, please remember which role your character is"],
         [], InfoMode)
  }

  /** The night prompt (`broadcastNightState`): the alive choose among the other alive players. */
  function NightView(g: Game, p: Player): (v: View)
    ensures |v.statements| == if p.alive then 5 else 4
    ensures v.statements[..3] == RunningStatement(g) && v.statements[3] == "Time: Night-time"
    ensures v.mode == SelectMode <==> p.alive
    ensures v.options == if p.alive then AlivePlayerSansSelfList(g.players, p.id) else []
    ensures p.alive ==> v.statements[4] == ActionPrompt(p.role)
  {
    if p.alive then
      View(RunningStatement(g) + ["Time: Night-time", ActionPrompt(p.role)],
           AlivePlayerSansSelfList(g.players, p.id), SelectMode)
    else
      View(RunningStatement(g) + ["Time: Night-time"], [], InfoMode)
  }

  /** The discussion prompt (`broadcastDiscussionState`): the alive may skip. */
  function DiscussionView(g: Game, p: Player): (v: View)
    ensures |v.statements| == 4
    ensures v.statements[..3] == RunningStatement(g) && v.statements[3] == "Time: Discussion-time"
    ensures v.mode == SelectMode <==> p.alive
    ensures v.options == if p.alive then ["Skip"] else []
  {
    if p.alive then View(RunningStatement(g) + ["Time: Discussion-time"], ["Skip"], SelectMode)
    else View(RunningStatement(g) + ["Time: Discussion-time"], [], InfoMode)
  }

  /** The vote prompt (`broadcastVoteState`): the alive choose among the other alive players. */
  function VoteView(g: Game, p: Player): (v: View)
    ensures |v.statements| == if p.alive then 5 else 4
    ensures v.statements[..3] == RunningStatement(g) && v.statements[3] == "Time: Vote-time"
    ensures v.mode == SelectMode <==> p.alive
    ensures v.options == if p.alive then AlivePlayerSansSelfList(g.players, p.id) else []
    ensures p.alive ==> v.statements[4] == "Vote to lynch someone"
  {
    if p.alive then
      View(RunningStatement(g) + ["Time: Vote-time", "Vote to lynch someone"],
           AlivePlayerSansSelfList(g.players, p.id), SelectMode)
    else
      View(RunningStatement(g) + ["Time: Vote-time"], [], InfoMode)
  }

  /** The name of the roster player with id `id`, or "" if there is none. */
  function NameOf(ps: seq<Player>, id: nat): string
  {
    match RosterPlayer(ps, id)
    case Some(p) => p.name
    case None => ""
  }

  /** The outcome of the vote (`broadcastVoteResults`), the same for everyone. */
  function VoteResultsView(g: Game, lynched: Option<nat>): (v: View)
    ensures v.mode == InfoMode && v.options == []
    ensures |v.statements| == 5 && v.statements[..4] == RunningStatement(g) + ["Time: Vote-time"]
    ensures lynched.None? <==> v.statements[4] == "no one was lynched"
  {
    var result := match lynched
      case None => "no one was lynched"
      case Some(id) => NameOf(g.players, id) + " was lynched after majority vote";
    View(RunningStatement(g) + ["Time: Vote-time", result], [], InfoMode)
  }

  /** The Detective's result line: whether the investigated player is Mafia, or "" if nobody was. */
  function Detected(g: Game, investigated: Option<nat>): string
  {
    match investigated
    case None => ""
    case Some(id) =>
      match RosterPlayer(g.players, id)
      case Some(q) => if q.role == Mafia then q.name + " is mafia" else q.name + " is not mafia"
      case None => " is not mafia"
  }

  /** The statements of the morning after, shared by every player. */
  function MorningStatement(g: Game, dead: Option<nat>): seq<string>
  {
    var result := match dead
      case None => "during the night time no one died"
      case Some(id) => "during the night time " + NameOf(g.players, id) + " died";
    RunningStatement(g) + ["Time: Morning-time", result]
  }

  /** The morning view (`broadcastNightResults`); only an alive Detective gets the result line. */
  function NightResultsView(g: Game, dead: Option<nat>, investigated: Option<nat>, p: Player): (v: View)
    ensures v.mode == InfoMode && v.options == []
    ensures |v.statements| == |MorningStatement(g, dead)| + if p.role == Detective && p.alive then 1 else 0
    ensures v.statements[..|MorningStatement(g, dead)|] == MorningStatement(g, dead)
  {
    if p.role == Detective && p.alive then
      View(MorningStatement(g, dead) + [Detected(g, investigated)], [], InfoMode)
    else
      View(MorningStatement(g, dead), [], InfoMode)
  }

  /** Whether some Mafia is still alive, the source's `mafiaWin`. */
  predicate MafiaAlive(ps: seq<Player>)
  {
    exists p :: p in ps && p.alive && p.role == Mafia
  }

  /** The final announcement, naming every Mafia, dead or alive (`broadcastFinishState`). */
  function FinishStatement(g: Game): (r: string)
    ensures |r| >= 11 && (r[..11] == "The mafia (" <==> MafiaAlive(g.players))
  {
    var mafia := Join(Names(Filter(g.players, IsMafia)), ", ");
    if MafiaAlive(g.players) then "The mafia (" + mafia + ") have won"
    else
      var r := "All the mafia (" + mafia + ") are dead";
      assert r[0] == 'A';
      r
  }

  predicate IsMafia(p: Player) { p.role == Mafia }

  /**
   The final view: the finish statement alone, informational. Who gets it
   and what it says of the winner: `Driver.FinishShowsWinner`.
   */
  function FinishView(g: Game): (v: View)
    ensures v.statements == [FinishStatement(g)] && v.options == [] && v.mode == InfoMode
  {
    View([FinishStatement(g)], [], InfoMode)
  }

  /** The invitation to a new game after the end (`broadcastResetState`). */
  const ResetView := View(["Create or join a game", "Enter the room code to join a game"],
                          ["Create a game"], NullMode)

  /**
   The lobby with its Start option, sent when a player picks a name
   (`namePlayer`). Who gets it: `Entry.NamePlayerReaches`.
   */
  function LobbyView(g: Game): (v: View)
    ensures v.statements == UnstartedStatement(g) && v.options == ["Start"] && v.mode == SelectMode
  {
    View(UnstartedStatement(g), ["Start"], SelectMode)
  }

  /**
   The lobby with the name prompt, sent to a player who has just joined;
   see `Sessions.JoinAsksForName`.
   */
  function PickNameView(g: Game): (v: View)
    ensures v.statements == UnstartedStatement(g) + ["Pick a name"] && v.options == [] && v.mode == EnterMode
  {
    View(UnstartedStatement(g) + ["Pick a name"], [], EnterMode)
  }

  /**
   The acknowledgement of a night action (`sendThanksForActingState`): no
   choice is left. How it answers the night prompt: `ThanksAnswersPrompt`;
   who gets it: `Entry.SubmissionAcknowledged`.
   */
  function ThanksForActingView(g: Game): (v: View)
    ensures |v.statements| == 4 && v.statements[..3] == RunningStatement(g) && v.options == [] && v.mode == InfoMode
    ensures v.statements[3] == "Time: Night-time"
  {
    View(RunningStatement(g) + ["Time: Night-time"], [], InfoMode)
  }

  /**
   The acknowledgement of a vote (`sendThanksForVotingState`): no choice is
   left. How it answers the vote prompt: `ThanksAnswersPrompt`; who gets it:
   `Entry.SubmissionAcknowledged`.
   */
  function ThanksForVotingView(g: Game): (v: View)
    ensures |v.statements| == 4 && v.statements[..3] == RunningStatement(g) && v.options == [] && v.mode == InfoMode
    ensures v.statements[3] == "Time: Vote-time"
  {
    View(RunningStatement(g) + ["Time: Vote-time"], [], InfoMode)
  }

  /**
   The acknowledgement of a skip (`sendThanksForSkippingState`): no choice is
   left. How it answers the discussion prompt: `ThanksAnswersPrompt`; who
   gets it: `Entry.SubmissionAcknowledged`.
   */
  function ThanksForSkippingView(g: Game): (v: View)
    ensures |v.statements| == 5 && v.statements[..3] == RunningStatement(g) && v.options == [] && v.mode == InfoMode
    ensures v.statements[3..] == ["Time: Discussion-time", "Voted to skip"]
  {
    View(RunningStatement(g) + ["Time: Discussion-time", "Voted to skip"], [], InfoMode)
  }

  /**
   Each acknowledgement is the prompt it answers with the choice withdrawn:
   the same statements up to the round's time (plus "Voted to skip" after
   the discussion), no options, and info mode.
   */
  lemma ThanksAnswersPrompt(g: Game, p: Player)
    ensures ThanksForActingView(g).statements == NightView(g, p).statements[..4]
    ensures ThanksForVotingView(g).statements == VoteView(g, p).statements[..4]
    ensures ThanksForSkippingView(g).statements == DiscussionView(g, p).statements + ["Voted to skip"]
    ensures p.alive ==> NightView(g, p).mode == SelectMode && ThanksForActingView(g).mode == InfoMode
  {
    assert NightView(g, p).statements[..4] == NightView(g, p).statements[..3] + [NightView(g, p).statements[3]];
    assert VoteView(g, p).statements[..4] == VoteView(g, p).statements[..3] + [VoteView(g, p).statements[3]];
  }

  /**
   Dead players are never offered a choice: every prompt they get is
   informational with no options; alive players always get a selection.
   */
  lemma OnlyTheAliveChoose(g: Game, p: Player)
    ensures !p.alive ==> NightView(g, p).mode == InfoMode && NightView(g, p).options == []
    ensures !p.alive ==> VoteView(g, p).mode == InfoMode && VoteView(g, p).options == []
    ensures !p.alive ==> DiscussionView(g, p).mode == InfoMode && DiscussionView(g, p).options == []
    ensures p.alive ==> NightView(g, p).mode == SelectMode && VoteView(g, p).mode == SelectMode
                        && DiscussionView(g, p).options == ["Skip"]
  {
  }

  /**
   The names an alive player may pick at night or in the vote are exactly the
   names of the other alive roster players.
   */
  lemma OptionsAreAliveOthers(g: Game, p: Player, n: string)
    requires p.alive
    ensures n in NightView(g, p).options <==> exists q :: q in g.players && q.alive && q.id != p.id && q.name == n
    ensures n in VoteView(g, p).options <==> exists q :: q in g.players && q.alive && q.id != p.id && q.name == n
  {
    SansSelfListNames(g.players, p.id, n);
  }

  /**
   After the night every player sees the same morning statements; the alive
   Detective alone gets one more line, the investigation result.
   */
  lemma InvestigationOnlyForAliveDetective(g: Game, dead: Option<nat>, investigated: Option<nat>, p: Player, q: Player)
    requires !(q.role == Detective && q.alive)
    ensures NightResultsView(g, dead, investigated, q).statements == MorningStatement(g, dead)
    ensures p.role == Detective && p.alive ==>
              NightResultsView(g, dead, investigated, p).statements
              == NightResultsView(g, dead, investigated, q).statements + [Detected(g, investigated)]
  {
  }

  /** The finish announcement says "have won" exactly when some Mafia is alive. */
  lemma FinishNamesWinner(g: Game)
    ensures MafiaAlive(g.players) <==>
              FinishStatement(g) == "The mafia (" + Join(Names(Filter(g.players, IsMafia)), ", ") + ") have won"
  {
    var mafia := Join(Names(Filter(g.players, IsMafia)), ", ");
    if !MafiaAlive(g.players) {
      assert FinishStatement(g)[0] == 'A';
      assert ("The mafia (" + mafia + ") have won")[0] == 'T';
    }
  }

  /** The deliveries of `view(p)` to every roster player that satisfies `to`, in roster order. */
  function Broadcast(ps: seq<Player>, to: Player -> bool, view: Player -> View): (out: Outbox)
    ensures |out| <= |ps|
  {
    if |ps| == 0 then []
    else (if to(ps[0]) then [Delivery(ps[0].id, view(ps[0]))] else []) + Broadcast(ps[1..], to, view)
  }

  /** A broadcast reaches every targeted roster player with its view, and nobody else. */
  lemma {:induction false} BroadcastReaches(ps: seq<Player>, to: Player -> bool, view: Player -> View)
    ensures forall d :: d in Broadcast(ps, to, view) ==> exists p :: p in ps && to(p) && d == Delivery(p.id, view(p))
    ensures forall p :: p in ps && to(p) ==> Delivery(p.id, view(p)) in Broadcast(ps, to, view)
  {
    if |ps| > 0 {
      BroadcastReaches(ps[1..], to, view);
      assert forall p :: p in ps <==> p == ps[0] || p in ps[1..] by {
        assert ps == [ps[0]] + ps[1..];
      }
    }
  }

  predicate IsConnected(p: Player) { p.connected }

  /** `after` is `before` with at most the last payloads changed. */
  predicate PayloadsOnly(before: seq<Player>, after: seq<Player>)
  {
    && |after| == |before|
    && forall i :: 0 <= i < |before| ==> after[i] == before[i].(lastPayload := after[i].lastPayload)
  }

  /** Payload changes keep every seat. */
  lemma PayloadsKeepSeats(before: seq<Player>, after: seq<Player>)
    requires PayloadsOnly(before, after)
    ensures SameSeats(before, after)
  {
    forall i | 0 <= i < |before| ensures after[i].id == before[i].id && after[i].role == before[i].role {
      assert after[i] == before[i].(lastPayload := after[i].lastPayload);
    }
  }

  /** The last view in `out` for the player with id `id`, or `previous` if there is none. */
  function LastViewTo(out: Outbox, id: nat, previous: View): View
  {
    if |out| == 0 then previous
    else if out[|out| - 1].to == id then out[|out| - 1].view
    else LastViewTo(out[..|out| - 1], id, previous)
  }

  /** Records `v` as the last payload of the player with id `id`. */
  function Record(g: Game, id: nat, v: View): Game
  {
    ModifyMember(g, id, (p: Player) => p.(lastPayload := v))
  }

  /**
   Sends the views of `out` in order (`sendToConn`): afterwards every player's
   last payload is the last view sent to it, and nothing else has changed.
   */
  function Deliver(g: Game, out: Outbox): (r: Game)
    ensures r == g.(players := r.players, dropped := r.dropped)
    ensures |r.players| == |g.players| && |r.dropped| == |g.dropped|
    ensures forall i :: 0 <= i < |g.players| ==>
              r.players[i] == g.players[i].(lastPayload := LastViewTo(out, g.players[i].id, g.players[i].lastPayload))
    ensures forall i :: 0 <= i < |g.dropped| ==>
              r.dropped[i] == g.dropped[i].(lastPayload := LastViewTo(out, g.dropped[i].id, g.dropped[i].lastPayload))
  {
    if |out| == 0 then g
    else
      var last := out[|out| - 1];
      Record(Deliver(g, out[..|out| - 1]), last.to, last.view)
  }
}

=== FILE: wrappers.dfy ===
/** The optional value used for the source's nil-able player pointers. */
module Wrappers {

  datatype Option<+T> = None | Some(value: T)
}
